=== FILE: README.md ===
# Serverless food-delivery shop: a Dafny model of its handler logic

This project models the decision and transformation logic of a small serverless shop:

- the per-user shopping cart kept in a DynamoDB table (`add_to_cart`, `get_cart`);
- the "padeliver" product handlers:
  - resolving the `product_id`/`item` headers;
  - the `in_user_cart` annotation;
  - inventory records;
  - CSV dispatch by S3 key prefix;
- the product model:
  - create, view, edit and delete status selection;
  - the DynamoDB `SET` update-expression builder;
  - the S3-triggered batch create and batch delete;
- the HTTP-method dispatch of `product_modification`;
- image upload keys and public URLs, and the S3 download gateway;
- the six-field product text file reader;
- the browser code:
  - the cart page: the quantity guard, +/- buttons and reading the fetched cart;
  - the menu page: category buttons, menu filter, brand cards and image file names.

Every handler is a pure function:

- A request becomes ordered JSON members (`Json.Fields`).
- A reply is a `Http.Response` whose body is plain text or a JSON document.
- A store is a Dafny `map`.
- A write, queue message or upload is recorded in a list of effects rather than performed.
- A failing dependency is an `Option<string>` error parameter carrying the exception text.
- An uncaught Python exception in the modelled logic is `Padeliver.Raised`.

Python and JavaScript semantics are written out where they differ:

- `Json.Truthy` and `Json.JsTruthy` model the two languages' truthiness.
- Python `int()` is modelled by `Numerals.PyIntOfString`, and JavaScript `parseInt` (hex prefix included) by `Numerals.JsParseInt`.
- `str.strip()` white space is `Strings.IsPySpace`, and JavaScript white space is `Strings.IsJsSpace`.

Modules follow the program's files:

| module | file |
|---|---|
| `Cart` | handlers/cartHandler.py |
| `Padeliver` | handlers/padeliverHandler.py |
| `ProductModel` | models/productModel.py |
| `ProductHandler` | handlers/productHandler.py |
| `ProductFile` | models/flaskProductModel.py |
| `ClientCart` | static/assets/js/cart.js |
| `Catalog` | static/assets/js/products.js |
| `Images` | handlers/imageHandler.py |
| `S3Gateway` | gateways/s3_gateway.py |

`Options`, `Json`, `Http`, `Seqs`, `Strings` and `Numerals` hold the shared vocabulary.

## Model

| member | source | states |
|---|---|---|
| Cart.StoredCart | handlers/cartHandler.py:16-17 | A user with no item, or an item with no `cart` attribute, reads as the empty list. Otherwise the stored list is read as is. |
| Cart.FirstMatch | handlers/cartHandler.py:20 | Finds the first line with the product id. It finds none exactly when no line has that id. |
| Cart.Merge | handlers/cartHandler.py:19-24 | If the product is present: same length, only the first matching line changes, and only its quantity (old + new). The incoming line's other fields are dropped. If absent: the incoming line is appended unchanged. Any quantity is accepted. |
| Cart.MergeAddsQuantity | handlers/cartHandler.py:20-24 | A merge raises the incoming product's total by the incoming quantity. Every other product's total is unchanged. |
| Cart.MergeKeepsOtherProducts | handlers/cartHandler.py:20-24 | The lines of every other product come out of a merge identical and in the same order. |
| Cart.MergeKeepsIdsDistinct | handlers/cartHandler.py:20-24 | A cart with one line per product keeps one line per product after a merge. The merged product is then present. |
| Cart.MergeQuantityOnDistinctCart | handlers/cartHandler.py:20-22 | On a distinct cart, the merged product's single line holds the old total plus the incoming quantity. |
| Cart.QtyOfDistinct | handlers/cartHandler.py:20-22 | In a distinct cart, a product's total is the quantity on its one line. |
| Cart.CartJson | handlers/cartHandler.py:38 | The written JSON list has one object per line, in cart order. |
| Cart.AddToCart | handlers/cartHandler.py:9-42 | Other users' carts are untouched. The user's stored cart becomes the merge of the old cart (missing reads as empty) with the posted line. The modelled 200 response echoes exactly the stored list (see Left out for the source's reply). |
| Cart.GetCart | handlers/cartHandler.py:44-62 | Always 200. The body is a bare JSON list with one object per stored line (empty for a missing cart), not an object with a `cart` member. |
| Cart.GetCartWrapped | handlers/cartHandler.py:56-58 | The corrected body: an object whose `cart` member is the stored list. |
| Cart.GetCartAfterAdd | handlers/cartHandler.py:38 | The modelled `add_to_cart` reply is what the next `get_cart` returns. |
| Cart.AddTwiceScenario | handlers/cartHandler.py:20-24 | Adding 3 and then 2 of one product leaves a single line of 5 that keeps the first posting's details. |
| Padeliver.ResolveHeaders | handlers/padeliverHandler.py:65-72 | Resolution is by id exactly when a truthy `product_id` header is not "default". It is by item exactly when `product_id` is "default" and `item` is truthy. A missing `product_id` drops `item` as well. |
| Padeliver.FindTarget | handlers/padeliverHandler.py:74-104 | 400 "Missing product_id or item header" with no lookup when nothing survives resolution. On an item lookup: 404 when nothing is found, 500 "Error searching item table: " + the exception text when the lookup raises or the record cannot give a `product_id` (a dict without it gives the quoted key), the record's `product_id` when found, and 400 "Invalid product_id" when that id is falsy. Nothing here escapes uncaught, and every resolved id is truthy. |
| Padeliver.NoLookupWithoutItem | handlers/padeliverHandler.py:81 | The item table is consulted only for an item resolution: with an id the lookup function cannot affect the result. |
| Padeliver.ViewByIdOrName | handlers/padeliverHandler.py:63-107 | The product view of the resolved id, or the early error reply. |
| Padeliver.ItemViewsRecordId | handlers/padeliverHandler.py:74-107 | Asking by item name views the same as asking by the id the item record names. |
| Padeliver.ExtractCart | handlers/padeliverHandler.py:159-162 | A non-object cart body, or one without `cart`, gives the empty list. A dict body with a `cart` member gives what iterating that member gives: its items for a list. A `cart` that is null, a boolean or a number makes the loop raise. |
| Padeliver.Iterate | handlers/padeliverHandler.py:167 | `for x in v` over a parsed JSON value: a list yields its items, a string its one-character strings, a dict its keys, in order. Null, booleans and numbers raise TypeError. |
| Padeliver.PyInt | handlers/padeliverHandler.py:169 | `int(v)` of a parsed JSON value: a number is itself, `True`/`False` are 1/0, a string is read as `int()` reads text. Null, lists and dicts raise. |
| Padeliver.InUserCart | handlers/padeliverHandler.py:164-170 | 0 when every entry is a dict naming another product (an empty cart included). Otherwise `int` of the quantity of the first dict naming the product. A non-dict entry before any match raises, and so does a matching entry whose quantity is missing or not convertible. |
| Padeliver.AnnotateView | handlers/padeliverHandler.py:155-174 | The view keeps its status and gains `in_user_cart`; a non-object view body or a bad quantity raises. |
| Padeliver.ViewWithUser | handlers/padeliverHandler.py:109-174 | Early replies as in the plain view. Otherwise the product view annotated from the user's `get_cart` body. |
| Padeliver.InUserCartAlwaysZero | handlers/padeliverHandler.py:158-164 | As written, every successful annotated view reports `in_user_cart` 0, whatever the user's cart holds. |
| Padeliver.InUserCartIgnoresStoredLine | handlers/padeliverHandler.py:158-170 | A user holding 2 of P1 is told 0 when viewing P1. |
| Padeliver.InUserCartOfLines | handlers/padeliverHandler.py:167-170 | Over the JSON of stored lines, `in_user_cart` is the quantity of the first line for the product, or 0. |
| Padeliver.QuantityTextReadsAsNumber | handlers/padeliverHandler.py:169 | `int` reads a quantity sent as decimal text as the same number it reads from the number itself. |
| Padeliver.InUserCartWithWrappedBody | handlers/padeliverHandler.py:158-170 | With the corrected `{"cart": [...]}` body, `in_user_cart` is the quantity the user actually holds. |
| Padeliver.AddInventory | handlers/padeliverHandler.py:176-222 | 400 exactly when `product_id` is falsy or `quantity` is absent or null. 404 exactly when the input is valid and the product is unknown. Raised exactly when the product exists and `int()` refuses the quantity. A write failure then gives 500 "Error adding inventory: " + the error. 200 exactly when none of these happens, and then the ledger gains exactly one record: `int(quantity)`, the remark or "Default remark.", and the timestamp. Otherwise the ledger is unchanged. |
| Padeliver.AddInventoryParsesTextQuantity | handlers/padeliverHandler.py:180-207 | A quantity sent as the decimal text of any integer q is stored as q, with the default remark and the request time. |
| Padeliver.ActionFor | handlers/padeliverHandler.py:37-44 | Non-empty content under `for_padeliver_create/` is created. Under `for_padeliver_delete/` it is deleted. Anything else is ignored. |
| Padeliver.ProcessCsv | handlers/padeliverHandler.py:32-51 | Always 200 "CSV processed successfully". At most one action per record, each the action `ActionFor` chooses for one of the record keys and its content. |
| Padeliver.ProcessCsvOne | handlers/padeliverHandler.py:35-44 | A single record gives exactly the action `ActionFor` chooses for it, or none. |
| Padeliver.ProcessCsvAppend | handlers/padeliverHandler.py:35-44 | Records are handled independently and in order: the actions for two batches are the actions for each, concatenated. |
| Padeliver.IgnoredRecord | handlers/padeliverHandler.py:38-44 | A record with empty content or an unknown prefix produces no action. |
| ProductModel.CreateProduct | models/productModel.py:9-20 | 400 with no save exactly when the body lacks `product_id` (an empty body included). Otherwise the product is saved before the message is queued to "products-queue-rey-sqs". 500 exactly when the queue fails, with the save kept. 200 with the product exactly when the id is present and the queue works. |
| ProductModel.ViewProduct | models/productModel.py:27-34 | 400 for a missing or empty id, 404 when the table has no item, otherwise 200 with the item. |
| ProductModel.Assignments | models/productModel.py:41 | Each clause assigns a body member other than `product_id` to its own `:` placeholder. |
| ProductModel.AssignmentsAreOtherMembers | models/productModel.py:41 | The clauses name exactly the body members other than `product_id`, in body order: one clause per such member. |
| ProductModel.UpdateExpression | models/productModel.py:41 | The expression starts with "SET ", and is exactly "SET " when there are no clauses. |
| ProductModel.UpdateExpressionOfOne | models/productModel.py:41 | One clause follows "SET " directly. |
| ProductModel.UpdateExpressionSnoc | models/productModel.py:41 | Each further clause is appended after ", ", so the clauses appear in order, separated by ", ". |
| ProductModel.Placeholders | models/productModel.py:42 | Every body member other than `product_id` has its `:` placeholder in the map. Every key of the map is such a placeholder, bound to the value of a member with that name. |
| ProductModel.PlaceholderKeysMatch | models/productModel.py:41-42 | The value map's keys are exactly the placeholders used in the expression. |
| ProductModel.PlaceholdersDistinct | models/productModel.py:41 | On a dict body no placeholder is used twice. |
| ProductModel.PlaceholderValuesMatch | models/productModel.py:41-42 | On a dict body each placeholder maps to the body value of its attribute. |
| ProductModel.AssignmentsInBodyOrder | models/productModel.py:41 | The assigned attributes appear in body order. |
| ProductModel.AssignmentsExample | models/productModel.py:41 | A body `{product_id, price, item}` assigns price, then item. |
| ProductModel.UpdateExpressionOfTwo | models/productModel.py:41 | Two clauses render as "SET " + first + ", " + second. |
| ProductModel.EditProduct | models/productModel.py:36-44 | 400 with no update exactly when `product_id` is missing or falsy. Otherwise one update of that id with the expression and value map, and 200. |
| ProductModel.DeleteProduct | models/productModel.py:46-51 | 400 for a missing or empty id. Otherwise one delete of that id and 200 "Product <id> deleted successfully". |
| ProductModel.BatchCreate | models/productModel.py:55-68 | The gateway's rejection is passed through, and an empty row set gives 400 "CSV file is empty". Otherwise one batch write of all rows and 200 "<n> products created.". |
| ProductModel.FirstColumn | models/productModel.py:78 | One id per non-empty row, each the first cell of such a row. |
| ProductModel.FirstColumnCons | models/productModel.py:78 | Row by row: an empty row adds no id, any other row adds its first cell, in file order. |
| ProductModel.BatchDelete | models/productModel.py:70-83 | The rejection is passed through, and no ids gives 400 "No product IDs found". Otherwise one batch delete of the first-column ids and 200 "Deleted <n> products". |
| ProductHandler.Params | handlers/productHandler.py:28 | Missing query parameters read as an empty map. Present parameters are read as they are, so `http_method` and `product_id` reach the dispatch. |
| ProductHandler.EffectiveMethod | handlers/productHandler.py:30 | A non-empty `http_method` parameter wins, upper-cased. Otherwise the request-context method as given, or "UNKNOWN". |
| ProductHandler.RouteOf | handlers/productHandler.py:31-39 | GET views, PUT edits, DELETE deletes; nothing else is routed. |
| ProductHandler.ProductModification | handlers/productHandler.py:20-39 | Each route answers with its model operation, reading the query `product_id` or the body. Any other method gives 400 "Invalid action or HTTP method". |
| ProductHandler.OverrideIsUpperCased | handlers/productHandler.py:30 | `http_method=delete` is routed to delete. |
| ProductHandler.LowerCaseContextMethodRefused | handlers/productHandler.py:30-39 | A lower-case request-context method "get" is refused with 400. |
| ProductFile.ParseLine | models/flaskProductModel.py:14-22 | A line is accepted exactly when its stripped text has six comma-separated fields. |
| ProductFile.ParsedProductRenders | models/flaskProductModel.py:14-22 | An accepted product's fields, joined with commas, give back the stripped line, and none contains a comma. The price stays text. |
| ProductFile.ParseAll | models/flaskProductModel.py:13-22 | Products are read in line order. Reading stops right before the first malformed line. |
| ProductFile.ReadProducts | models/flaskProductModel.py:7-25 | An unopenable or empty file gives no products. Otherwise product i comes from line i + 1, so the header is never parsed. At most (lines - 1) products, and the line after the last one read is malformed. |
| ProductFile.ParseRow | models/flaskProductModel.py:14-22 | A written product line reads back as the same product. |
| ProductFile.ReadWrittenFile | models/flaskProductModel.py:12-22 | A header plus one line per product reads back as exactly those products. |
| ProductFile.MalformedLastLineHarmless | models/flaskProductModel.py:10-25 | A malformed last line loses none of the products before it. |
| ProductFile.BlankLineMalformed | models/flaskProductModel.py:14 | A blank line is malformed. |
| ClientCart.AddToCartRequest | static/assets/js/cart.js:42-48 | A line is sent exactly when `parseInt` of the entered text is a number above 0, and it carries that quantity. |
| ClientCart.CancelledPromptSendsNothing | static/assets/js/cart.js:43-47 | A cancelled prompt sends nothing. |
| ClientCart.TypedCountIsSent | static/assets/js/cart.js:43-48 | A positive count followed by non-digits ("3 pcs") is sent as that count. |
| ClientCart.NonPositiveCountRefused | static/assets/js/cart.js:43-47 | 0 or a negative count is refused. |
| ClientCart.StoredQuantityParses | static/assets/js/cart.js:76 | `parseInt` of a stored whole quantity is that quantity. |
| ClientCart.UpdateQuantity | static/assets/js/cart.js:73-82 | An unknown product leaves the cart unchanged. Otherwise only the first matching line takes old + change. When that is 0 or less, every line for the product goes, and the other lines stay in their order. |
| ClientCart.UpdateKeepsOtherProducts | static/assets/js/cart.js:73-82 | The other products' lines stay identical and in order. |
| ClientCart.UpdateMovesQuantity | static/assets/js/cart.js:74-78 | On a distinct cart the product's total becomes old + change, and the line disappears once that is 0 or less. |
| ClientCart.FetchedCart | static/assets/js/cart.js:92-94 | Reading `cart` of `null` fails. A body without a truthy `cart` member gives the empty list, and a truthy one is used as is. |
| ClientCart.ClientCartEmptyAfterAdd | static/assets/js/cart.js:93 | As written, once an add has stored the user's line, fetching the cart still gives the page an empty cart. |
| ClientCart.ClientCartWithWrappedBody | static/assets/js/cart.js:93 | With the corrected body the page's cart is exactly the stored lines. |
| Catalog.Categories | static/assets/js/products.js:5 | "All" first, then each product category exactly once, and no other names. |
| Catalog.CategoriesInFirstAppearanceOrder | static/assets/js/products.js:5 | Categories follow the order in which they first appear in the product list. |
| Catalog.AllCanRepeat | static/assets/js/products.js:5 | A category literally named "All" gives two "All" buttons. |
| Catalog.DisplayMenu | static/assets/js/products.js:31-34 | "All" shows every product. Another category shows, in list order, exactly the products in it. |
| Catalog.Brands | static/assets/js/products.js:65 | Each brand exactly once, and no other names. |
| Catalog.BrandsInFirstAppearanceOrder | static/assets/js/products.js:65 | The cards follow the order in which brands first appear in the product list. |
| Catalog.BrandProducts | static/assets/js/products.js:67 | A brand's products in list order: all of them and only them. |
| Catalog.BrandCategoryList | static/assets/js/products.js:68 | The brand's categories, each once. |
| Catalog.BrandCategoryListInFirstAppearanceOrder | static/assets/js/products.js:68 | A brand's categories follow the order in which they first appear among its products. |
| Catalog.BrandCategories | static/assets/js/products.js:68 | The first three of the brand's categories in first-appearance order, or all of them when there are fewer. Each comes from one of the brand's products. |
| Catalog.BadgeCount | static/assets/js/products.js:67-79 | The number of the brand's products; non-zero exactly when the brand has one. |
| Catalog.BrandImage | static/assets/js/products.js:69 | The brand lower-cased with its spaces dropped, then ".jpg". The stem has no spaces and no upper-case ASCII letter. It is a subsequence of the lower-cased brand, as long as the brand's count of non-space characters. |
| Catalog.BrandImageIgnoresCase | static/assets/js/products.js:36 | Brands differing only in ASCII letter case share one image file. |
| Catalog.BrandImageIgnoresTrailingSpaces | static/assets/js/products.js:36 | Appending spaces to a brand name does not change its image file. |
| Images.Folder | handlers/imageHandler.py:25 | "brand_images/" exactly for type "brand", "product_images/" otherwise. |
| Images.ImageKey | handlers/imageHandler.py:26 | The key is the folder, then the image name, then ".jpg". |
| Images.ObjectUrl | handlers/imageHandler.py:41 | The URL starts with the bucket's public address. |
| Images.UrlNamesKey | handlers/imageHandler.py:41 | A URL built for a key names that key again. |
| Images.UploadImage | handlers/imageHandler.py:10-53 | A missing or empty field gives 400 with no upload. A decode failure gives 500 with no upload. Otherwise exactly one JPEG put under the key. 200 with the object URL exactly when nothing failed, and 500 "Error uploading image: " + the error otherwise. |
| Images.UrlsOf | handlers/imageHandler.py:62-64 | One URL per listed key, in listing order, each naming its key. |
| Images.GetBrandImages | handlers/imageHandler.py:55-76 | A listing failure gives 500. Otherwise 200 with one URL per object, or none when the listing has no `Contents`. |
| S3Gateway.BaseName | gateways/s3_gateway.py:16 | The part of the key after its last "/": a suffix with no "/". |
| S3Gateway.BaseNameOfPath | gateways/s3_gateway.py:16 | The base name of folder + "/" + name is name, when name has no "/". |
| S3Gateway.DownloadFileFromS3 | gateways/s3_gateway.py:4-18 | Downloaded exactly when the key starts with prefix + "/", giving the bucket and "/tmp/" + the base name. Otherwise 400 "Invalid file location" and no download. |
| S3Gateway.FolderNeedsSlash | gateways/s3_gateway.py:12 | A key equal to the prefix, or continuing with another character than "/", is rejected. |
| S3Gateway.AcceptsFileInFolder | gateways/s3_gateway.py:12-18 | A file directly in the folder is accepted and lands at "/tmp/" + its name. |
| Json.Get | handlers/padeliverHandler.py:66-67 | `dict.get`: absent exactly when no member has the key; otherwise the value of a member with that key. |
| Json.GetFindsFirst | handlers/padeliverHandler.py:66-67 | With the key stored more than once, the first member's value is the one read. |
| Json.SetField | handlers/padeliverHandler.py:164 | Item assignment: the key then reads as the new value and other keys are unchanged; a new key is appended. |
| Numerals.PyIntRoundTrip | handlers/padeliverHandler.py:204 | `int(str(i))` is `i`. |
| Numerals.PyIntOfString | handlers/padeliverHandler.py:204 | `int()` of a string succeeds exactly when the text, with the white space `int()` skips taken off both ends, is an optional sign and then decimal digits only. That white space is the `str.isspace()` set less U+001C to U+001F. A negative result needs a leading "-". |
| Numerals.PyIntOfPaddedDigits | handlers/padeliverHandler.py:204 | The value `int()` gives for any accepted text: white space, a sign ("", "+" or "-"), decimal digits and white space read as the signed value of the digits. |
| Numerals.ValueInLeadingZero | handlers/padeliverHandler.py:204 | A leading zero does not change the value of a digit string, so "05" and "5" read alike. |
| Numerals.IntStripIsMiddle | handlers/padeliverHandler.py:204 | The white space `int()` skips is taken only from the two ends: the text it reads is a middle slice whose surroundings are all white space. |
| Numerals.SeparatorRefused | handlers/padeliverHandler.py:204 | `int()` does not skip the information separators U+001C to U+001F, which `str.strip()` removes. Text that starts with one is refused. |
| Numerals.NoNumberAfterOtherStart | handlers/padeliverHandler.py:204 | `int()` refuses text whose first character is neither skipped white space, a sign nor a decimal digit. |
| Numerals.JsParseIntReadsPrefix | static/assets/js/cart.js:76 | `parseInt` reads back `String(i)`, also with non-digit text after it. |
| Numerals.JsParseInt | static/assets/js/cart.js:43 | `parseInt` gives a number exactly when, after white space and an optional sign, the text starts with a digit, or with `0x` and a hexadecimal digit. A negative result needs the "-" sign. |
| Numerals.JsParseIntOfDecimal | static/assets/js/cart.js:43 | `parseInt` of white space, a sign, decimal digits and text that does not continue them is the signed value of the digits. |
| Numerals.JsParseIntOfHex | static/assets/js/cart.js:43 | `parseInt` of white space, a sign, `0x` or `0X`, hexadecimal digits and text that does not continue them is the signed base-16 value of the digits. |
| Strings.SplitJoin | models/flaskProductModel.py:14 | Splitting comma-free fields joined by commas gives the fields back. |
| Strings.JoinSplit | models/flaskProductModel.py:14 | Joining the pieces of a split gives the text back. |
| Strings.StripPadded | models/flaskProductModel.py:14 | Stripping a line that ends in its newline gives the line's text. |
| Strings.Split | models/flaskProductModel.py:14 | At least one piece, and no piece holds the separator. |
| Strings.Strip | models/flaskProductModel.py:14 | The result is no longer than the text, does not start or end with white space, and is the text itself when it has no white space. |
| Strings.StripIsMiddle | models/flaskProductModel.py:14 | `strip()` removes white space from the two ends and nothing else: the result is a middle slice of the text and everything around it is white space. |
| Seqs.FilterIsSubseq | static/assets/js/products.js:34 | A filter keeps list order and keeps every element that passes. |
| Seqs.DedupFirstAppearance | static/assets/js/products.js:65 | `[...new Set(xs)]` lists each element once, in order of first appearance. |
| Seqs.Dedup | static/assets/js/products.js:5 | Each element once, every element of the input present, nothing else. |

## Left out

- Network, DynamoDB, S3, SQS and file I/O are not modelled. Their results are inputs. A failure the source catches is an error parameter.
- The failures the source does not catch are not modelled: `save_product`, `update_product` and `delete_product` in models/productModel.py, the cart table's `get_item` and `update_item`, and the S3 `download_file`. Each would end its handler with an uncaught exception.
- JSON parsing and serialisation, base64 decoding, `unquote_plus` and `datetime.now()` are not modelled; their results are given.
- Response headers are not modelled. Only status and body are.
- JSON numbers are integers. Decimal fractions and the `Decimal`/`str` conversions around them are not modelled.
- Numerals.PyIntOfString: the single underscores between digits and the non-ASCII Unicode decimal digits that Python's `int()` accepts are refused. JavaScript number precision is not modelled either.
- Case mapping is ASCII only. `upper()` and `toLowerCase()` on other letters are not modelled.
- Cart.AddToCart: the reply is modelled as the stored list. In the source, DynamoDB returns the quantities as `Decimal`, so `json.dumps` of the returned cart raises TypeError after the write has happened.
- Cart.GetCart: the `Decimal`-to-text conversion is not modelled. Each quantity is sent as a JSON number where the source sends its decimal text, and other numbers in a line are kept as numbers too. `int()` and `parseInt` read both forms of a whole number alike (see Padeliver.QuantityTextReadsAsNumber and ClientCart.StoredQuantityParses).
- Cart.AddToCart: also assumes each table item's `cart` holds well-formed lines with a string `product_id`. A malformed posted body, which raises before the merge, is not modelled.
- Cart.Merge: Python's truthiness test on the found line is not modelled, because a found line is always a non-empty dict.
- Padeliver.ViewWithUser: `view_product` and `get_product_name` are unconstrained parameters (`view` and `lookup`), because gateways/awsGateway.py does not define them. `decimal_default` is not modelled: the body it would serialise was produced by `json.loads`, so `json.dumps` never calls it.
- S3Gateway.DownloadFileFromS3: gateways/s3_gateway.py imports `aws_resources` from utils/aws_resources.py, which defines `S3_CLIENT` but no `aws_resources`. As written, loading that module (and models/productModel.py, which imports it) raises ImportError. The model assumes a gateway that loads and whose client downloads the object.
- Padeliver.AddInventory: `product_exists` is the unconstrained parameter `productExists`, and `add_inventory_item` is modelled as appending to `ledger`, with its failure as `writeError`. gateways/awsGateway.py does not define either of them.
- Padeliver.FindTarget: the text of the TypeError raised by reading `product_id` from a record that is not a dict is a parameter, because it depends on the record's type and the Python version.
- Padeliver.ProcessCsv: the CSV parsing of `process_create_csv` and `process_delete_csv` is not modelled. Only the dispatch by key prefix and content is modelled, because models/padeliverModel.py is not part of this model.
- ProductModel.BatchCreate and ProductModel.BatchDelete take the CSV rows as given, because `csv.DictReader` and `csv.reader` are not modelled.
- ProductModel.EditProduct: DynamoDB's rejection of a bare "SET " (a body holding only `product_id`) is not modelled.
- Images.UploadImage: non-string JSON values in the three fields are not modelled. A present field is text, and "" counts as missing.
- Images.UploadImage: the image bytes are not modelled, only the key and content type of the put.
- ProductFile.ReadProducts: the error message is not modelled, only the products returned. A read error other than a failed open is not modelled.
- The `get_padeliver_products`, `get_padeliver_product_names`, `get_all_products` and `create_one_product` pass-throughs are not modelled. They add no logic beyond the store or model call.
- Money totals and `toFixed` in cart.js are not modelled, because they are floating point.
- DOM and HTML rendering, `sessionStorage`, alerts and the click wiring are not modelled.
- app.py, highlight.js, models/padeliverModel.py and the gateway wrappers are not part of this model.
- The `add_to_cart` server call that follows `addToCart`, and its error alert, are not modelled.
- Concurrency is not modelled, including lost updates between two `add_to_cart` calls.
- An S3 event with no records, where the source raises, is not modelled.

## Findings

| source | as written | input that shows it | evidently intended | confidence | as-written member | corrected member |
|---|---|---|---|---|---|---|
| handlers/padeliverHandler.py:158-162 | `get_cart` (handlers/cartHandler.py:58) answers a bare JSON list. The viewer only reads a `cart` member of a dict, so it always sees an empty cart. | User u1 holds `[{product_id: "P1", quantity: 2}]`, and the viewer requests product P1. | `in_user_cart` is 2, the quantity the user holds. | not executed | Padeliver.InUserCartIgnoresStoredLine | Padeliver.InUserCartWithWrappedBody |
| static/assets/js/cart.js:93 | The page reads `data.cart` of the `get_cart` body, which a JSON array does not have, so the cart shown is always `[]`. | A user whose stored cart holds a line, for example after an `add_to_cart` write, loads the cart page, which calls `fetchCart()` (cart.js:118). | The page shows the stored lines. | not executed | ClientCart.ClientCartEmptyAfterAdd | ClientCart.ClientCartWithWrappedBody |

=== FILE: cart.dfy ===
/**
 * The server-side cart of handlers/cartHandler.py. The cart table maps a user id to
 * an item whose `cart` attribute is the ordered list of lines the client posted;
 * `add_to_cart` reads that list, merges one line into it and writes it back whole.
 */
module Cart {
  import opened Options
  import opened Json
  import opened Http
  import Seqs

  /** A cart line: the posted product record. `details` holds its other members (item, description, price). */
  datatype Line = Line(productId: string, quantity: int, details: Fields)

  /** A cart table item; `cart` is None when the item has no `cart` attribute. */
  datatype CartItem = CartItem(cart: Option<seq<Line>>)

  type CartTable = map<string, CartItem>

  /** The user's stored cart lines: a missing item, or an item without a cart attribute, reads as the empty list. */
  function StoredCart(table: CartTable, userId: string): (c: seq<Line>)
    ensures userId !in table ==> c == []
    ensures userId in table && table[userId].cart.None? ==> c == []
    ensures userId in table && table[userId].cart.Some? ==> c == table[userId].cart.value
  {
    if userId in table then table[userId].cart.GetOr([]) else []
  }

  predicate Contains(cart: seq<Line>, pid: string) {
    exists i :: 0 <= i < |cart| && cart[i].productId == pid
  }

  /** The cart invariant the merge is meant to keep: at most one line per product. */
  predicate DistinctIds(cart: seq<Line>) {
    forall i, j :: 0 <= i < j < |cart| ==> cart[i].productId != cart[j].productId
  }

  /** Position of the first line for `pid`: the line the add merges into, when there is one. */
  function FirstMatch(cart: seq<Line>, pid: string): (k: Option<nat>)
    ensures k.None? <==> !Contains(cart, pid)
    ensures k.Some? ==> k.value < |cart| && cart[k.value].productId == pid
    ensures k.Some? ==> forall j :: 0 <= j < k.value ==> cart[j].productId != pid
  {
    if |cart| == 0 then None
    else if cart[0].productId == pid then Some(0)
    else
      match FirstMatch(cart[1..], pid)
      case None =>
        assert forall i :: 1 <= i < |cart| ==> cart[i] == cart[1..][i - 1];
        None
      case Some(k) => Some(k + 1)
  }

  /**
   * The merge step of `add_to_cart`: the first line for the incoming product adds the
   * incoming quantity to its own and keeps everything else it had; with no such line the
   * incoming line is appended as it is. No check is made on the quantity.
   */
  function Merge(cart: seq<Line>, incoming: Line): (r: seq<Line>)
    ensures Contains(cart, incoming.productId) ==>
      var k := FirstMatch(cart, incoming.productId).value;
      && |r| == |cart|
      && r[k] == cart[k].(quantity := cart[k].quantity + incoming.quantity)
      && forall j :: 0 <= j < |cart| && j != k ==> r[j] == cart[j]
    ensures !Contains(cart, incoming.productId) ==> r == cart + [incoming]
  {
    if |cart| == 0 then [incoming]
    else if cart[0].productId == incoming.productId then
      [cart[0].(quantity := cart[0].quantity + incoming.quantity)] + cart[1..]
    else
      var r := [cart[0]] + Merge(cart[1..], incoming);
      assert Contains(cart, incoming.productId) ==> Contains(cart[1..], incoming.productId) by {
        if Contains(cart, incoming.productId) {
          var i :| 0 <= i < |cart| && cart[i].productId == incoming.productId;
          assert cart[1..][i - 1].productId == incoming.productId;
        }
      }
      r
  }

  /** Total quantity the cart holds for `pid`, summed over all its lines. */
  function QtyOf(cart: seq<Line>, pid: string): int {
    if |cart| == 0 then 0
    else (if cart[0].productId == pid then cart[0].quantity else 0) + QtyOf(cart[1..], pid)
  }

  /** The lines for `pid`, in cart order. */
  function LinesFor(cart: seq<Line>, pid: string): seq<Line> {
    Seqs.Filter(cart, (l: Line) => l.productId == pid)
  }

  /** A merge adds the incoming quantity to its product's total and leaves every other total alone. */
  lemma {:induction false} MergeAddsQuantity(cart: seq<Line>, incoming: Line, pid: string)
    ensures QtyOf(Merge(cart, incoming), pid)
      == QtyOf(cart, pid) + (if pid == incoming.productId then incoming.quantity else 0)
  {
    if |cart| == 0 {
      assert QtyOf([incoming], pid) == (if pid == incoming.productId then incoming.quantity else 0);
    } else if cart[0].productId == incoming.productId {
      var r := Merge(cart, incoming);
      assert r[1..] == cart[1..];
    } else {
      var r := Merge(cart, incoming);
      assert r[1..] == Merge(cart[1..], incoming);
      MergeAddsQuantity(cart[1..], incoming, pid);
    }
  }

  /** The lines of every other product come out of a merge exactly as they went in. */
  lemma {:induction false} MergeKeepsOtherProducts(cart: seq<Line>, incoming: Line, pid: string)
    requires pid != incoming.productId
    ensures LinesFor(Merge(cart, incoming), pid) == LinesFor(cart, pid)
  {
    if |cart| == 0 {
      assert LinesFor([incoming], pid) == LinesFor([], pid);
    } else {
      var r := Merge(cart, incoming);
      if cart[0].productId == incoming.productId {
        assert r[1..] == cart[1..];
        assert r[0].productId != pid;
      } else {
        assert r[0] == cart[0];
        assert r[1..] == Merge(cart[1..], incoming);
        MergeKeepsOtherProducts(cart[1..], incoming, pid);
      }
    }
  }

  /** A cart with one line per product still has one line per product after a merge. */
  lemma MergeKeepsIdsDistinct(cart: seq<Line>, incoming: Line)
    requires DistinctIds(cart)
    ensures DistinctIds(Merge(cart, incoming))
    ensures Contains(Merge(cart, incoming), incoming.productId)
  {
    var r := Merge(cart, incoming);
    if Contains(cart, incoming.productId) {
      var k := FirstMatch(cart, incoming.productId).value;
      assert forall j :: 0 <= j < |r| ==> r[j].productId == cart[j].productId;
    } else {
      assert r[|cart|] == incoming;
    }
  }

  /** On a distinct cart the merged product's one line holds old plus new quantity. */
  lemma MergeQuantityOnDistinctCart(cart: seq<Line>, incoming: Line)
    requires DistinctIds(cart)
    ensures var r := Merge(cart, incoming);
      var k := FirstMatch(r, incoming.productId);
      k.Some? && r[k.value].quantity == QtyOf(cart, incoming.productId) + incoming.quantity
  {
    MergeKeepsIdsDistinct(cart, incoming);
    var r := Merge(cart, incoming);
    MergeAddsQuantity(cart, incoming, incoming.productId);
    QtyOfDistinct(r, FirstMatch(r, incoming.productId).value);
  }

  /** In a distinct cart, a product's total is the quantity on its one line. */
  lemma {:induction false} QtyOfDistinct(cart: seq<Line>, k: nat)
    requires DistinctIds(cart)
    requires k < |cart|
    ensures QtyOf(cart, cart[k].productId) == cart[k].quantity
  {
    var pid := cart[k].productId;
    if k == 0 {
      QtyOfAbsent(cart[1..], pid);
    } else {
      QtyOfDistinct(cart[1..], k - 1);
    }
  }

  lemma {:induction false} QtyOfAbsent(cart: seq<Line>, pid: string)
    requires forall i :: 0 <= i < |cart| ==> cart[i].productId != pid
    ensures QtyOf(cart, pid) == 0
  {
    if |cart| > 0 {
      QtyOfAbsent(cart[1..], pid);
    }
  }

  /** The JSON object a stored line is read back as. */
  function LineJson(l: Line): Value {
    Obj([("product_id", Str(l.productId)), ("quantity", Num(l.quantity))] + l.details)
  }

  /** The JSON array a list of lines is written as. */
  function CartJson(cart: seq<Line>): (v: Value)
    ensures v.Arr? && |v.items| == |cart|
    ensures forall i :: 0 <= i < |cart| ==> v.items[i] == LineJson(cart[i])
  {
    Arr(Seqs.Map(cart, LineJson))
  }

  /** The table after a handler call, and its response. */
  datatype CartWrite = CartWrite(table: CartTable, response: Response)

  /**
   * `add_to_cart`: read the user's cart (missing reads as empty), merge the posted line,
   * overwrite the `cart` attribute with the result and echo that list back.
   */
  function AddToCart(table: CartTable, userId: string, incoming: Line): (w: CartWrite)
    ensures w.table.Keys == table.Keys + {userId}
    ensures forall u :: u in table && u != userId ==> w.table[u] == table[u]
    ensures StoredCart(w.table, userId) == Merge(StoredCart(table, userId), incoming)
    ensures w.response.status == 200
    ensures w.response.body == Doc(CartJson(StoredCart(w.table, userId)))
  {
    var merged := Merge(StoredCart(table, userId), incoming);
    CartWrite(table[userId := CartItem(Some(merged))], Response(200, Doc(CartJson(merged))))
  }

  /**
   * `get_cart`: always 200, and the body is the bare JSON list of lines (empty when the
   * user has no cart) rather than an object with a `cart` member.
   */
  function GetCart(table: CartTable, userId: string): (r: Response)
    ensures r.status == 200
    ensures r.body.Doc? && r.body.doc.Arr?
    ensures |r.body.doc.items| == |StoredCart(table, userId)|
    ensures forall i :: 0 <= i < |r.body.doc.items| ==> r.body.doc.items[i] == LineJson(StoredCart(table, userId)[i])
  {
    Response(200, Doc(CartJson(StoredCart(table, userId))))
  }

  /**
   * The body both readers of `get_cart` expect, `{"cart": [...]}`; see the findings in
   * README.md. Same status and same lines, wrapped in an object.
   */
  function GetCartWrapped(table: CartTable, userId: string): (r: Response)
    ensures r.status == 200
    ensures r.body.Doc? && r.body.doc.Obj?
    ensures Get(r.body.doc.fields, "cart") == Some(CartJson(StoredCart(table, userId)))
  {
    Response(200, Doc(Obj([("cart", CartJson(StoredCart(table, userId)))])))
  }

  /** What `add_to_cart` writes is what the next `get_cart` returns. */
  lemma GetCartAfterAdd(table: CartTable, userId: string, incoming: Line)
    ensures GetCart(AddToCart(table, userId, incoming).table, userId)
      == AddToCart(table, userId, incoming).response
  {
  }

  /** Adding 3 and then 2 of P1 for a user with no cart leaves one P1 line of quantity 5. */
  lemma AddTwiceScenario(details: Fields)
    ensures var t := AddToCart(map[], "u1", Line("P1", 3, details)).table;
      StoredCart(AddToCart(t, "u1", Line("P1", 2, [])).table, "u1") == [Line("P1", 5, details)]
  {
  }
}

=== FILE: catalog.dfy ===
/**
 * The menu page of static/assets/js/products.js: the category buttons, the menu a
 * category shows, and one restaurant card per brand with its item count, its first
 * three categories and its image file name.
 */
module Catalog {
  import opened Strings
  import Seqs

  /** A product as `/api/products` lists it. */
  datatype Product = Product(productId: string, category: string, brand: string, item: string,
                             description: string, price: string)

  function CategoryOf(p: Product): string { p.category }
  function BrandOf(p: Product): string { p.brand }

  function InCategory(category: string): Product -> bool {
    (p: Product) => p.category == category
  }

  function OfBrand(brand: string): Product -> bool {
    (p: Product) => p.brand == brand
  }

  /**
   * The category buttons: "All" first, then every category once, in order of first
   * appearance. The set is not told about "All", so a category named "All" repeats it.
   */
  function Categories(products: seq<Product>): (cs: seq<string>)
    ensures |cs| >= 1 && cs[0] == "All"
    ensures Seqs.Distinct(cs[1..])
    ensures forall i :: 0 <= i < |products| ==> products[i].category in cs[1..]
    ensures forall i :: 1 <= i < |cs| ==> exists j :: 0 <= j < |products| && products[j].category == cs[i]
  {
    var ds := Seqs.Dedup(Seqs.Map(products, CategoryOf));
    var cs := ["All"] + ds;
    assert cs[1..] == ds;
    assert forall i :: 1 <= i < |cs| ==> cs[i] == ds[i - 1];
    cs
  }

  /** The buttons come in the order the categories first appear in the product list. */
  lemma CategoriesInFirstAppearanceOrder(products: seq<Product>)
    ensures var cs := Categories(products)[1..];
      var names := Seqs.Map(products, CategoryOf);
      forall i, j :: 0 <= i < j < |cs| ==> Seqs.FirstPos(names, cs[i]) < Seqs.FirstPos(names, cs[j])
  {
    var names := Seqs.Map(products, CategoryOf);
    Seqs.DedupFirstAppearance(names);
    assert Categories(products)[1..] == Seqs.Dedup(names);
  }

  /** A product whose category is literally "All" makes "All" appear twice among the buttons. */
  lemma AllCanRepeat()
    ensures Categories([Product("P1", "All", "B", "I", "D", "1")]) == ["All", "All"]
  {
    var names := Seqs.Map([Product("P1", "All", "B", "I", "D", "1")], CategoryOf);
    assert names == ["All"];
    assert Seqs.Dedup(names) == ["All"];
  }

  /** `displayMenu`: "All" shows every product, any other category the products in it, in list order. */
  function DisplayMenu(products: seq<Product>, category: string): (shown: seq<Product>)
    ensures category == "All" ==> shown == products
    ensures category != "All" ==>
      && Seqs.Subseq(shown, products)
      && |shown| == Seqs.Count(products, InCategory(category))
      && (forall i :: 0 <= i < |shown| ==> shown[i].category == category)
      && (forall i :: 0 <= i < |products| && products[i].category == category ==> products[i] in shown)
  {
    if category == "All" then products
    else
      Seqs.FilterIsSubseq(products, InCategory(category));
      Seqs.Filter(products, InCategory(category))
  }

  /** The brands that get a card: each brand once, in order of first appearance. */
  function Brands(products: seq<Product>): (bs: seq<string>)
    ensures Seqs.Distinct(bs)
    ensures forall i :: 0 <= i < |products| ==> products[i].brand in bs
    ensures forall i :: 0 <= i < |bs| ==> exists j :: 0 <= j < |products| && products[j].brand == bs[i]
  {
    var bs := Seqs.Dedup(Seqs.Map(products, BrandOf));
    assert forall i :: 0 <= i < |bs| ==> bs[i] in Seqs.Map(products, BrandOf);
    bs
  }

  /** The cards come in the order the brands first appear in the product list. */
  lemma BrandsInFirstAppearanceOrder(products: seq<Product>)
    ensures var bs := Brands(products);
      var names := Seqs.Map(products, BrandOf);
      forall i, j :: 0 <= i < j < |bs| ==> Seqs.FirstPos(names, bs[i]) < Seqs.FirstPos(names, bs[j])
  {
    Seqs.DedupFirstAppearance(Seqs.Map(products, BrandOf));
  }

  /** The brand's products, in list order. */
  function BrandProducts(products: seq<Product>, brand: string): (ps: seq<Product>)
    ensures Seqs.Subseq(ps, products)
    ensures |ps| == Seqs.Count(products, OfBrand(brand))
    ensures forall i :: 0 <= i < |ps| ==> ps[i].brand == brand
    ensures forall i :: 0 <= i < |products| && products[i].brand == brand ==> products[i] in ps
  {
    Seqs.FilterIsSubseq(products, OfBrand(brand));
    Seqs.Filter(products, OfBrand(brand))
  }

  /** The brand's distinct categories in order of first appearance, before the cut to three. */
  function BrandCategoryList(products: seq<Product>, brand: string): (all: seq<string>)
    ensures Seqs.Distinct(all)
    ensures forall i :: 0 <= i < |all| ==>
      exists j :: 0 <= j < |products| && products[j].brand == brand && products[j].category == all[i]
    ensures forall i :: 0 <= i < |products| && products[i].brand == brand ==> products[i].category in all
  {
    var ps := BrandProducts(products, brand);
    var names := Seqs.Map(ps, CategoryOf);
    var all := Seqs.Dedup(names);
    forall i | 0 <= i < |all|
      ensures exists j :: 0 <= j < |products| && products[j].brand == brand && products[j].category == all[i]
    {
      CategoryFromBrandProduct(products, brand, all[i]);
    }
    forall i | 0 <= i < |products| && products[i].brand == brand
      ensures products[i].category in all
    {
      assert products[i] in ps;
      var k :| 0 <= k < |ps| && ps[k] == products[i];
      assert names[k] == products[i].category;
    }
    all
  }

  /** A brand's categories come in the order they first appear among the brand's products. */
  lemma BrandCategoryListInFirstAppearanceOrder(products: seq<Product>, brand: string)
    ensures var all := BrandCategoryList(products, brand);
      var names := Seqs.Map(BrandProducts(products, brand), CategoryOf);
      forall i, j :: 0 <= i < j < |all| ==> Seqs.FirstPos(names, all[i]) < Seqs.FirstPos(names, all[j])
  {
    Seqs.DedupFirstAppearance(Seqs.Map(BrandProducts(products, brand), CategoryOf));
  }

  lemma CategoryFromBrandProduct(products: seq<Product>, brand: string, c: string)
    requires c in Seqs.Map(BrandProducts(products, brand), CategoryOf)
    ensures exists j :: 0 <= j < |products| && products[j].brand == brand && products[j].category == c
  {
    var ps := BrandProducts(products, brand);
    var names := Seqs.Map(ps, CategoryOf);
    var k :| 0 <= k < |names| && names[k] == c;
    assert ps[k] in products;
    var j :| 0 <= j < |products| && products[j] == ps[k];
    assert products[j].brand == brand && products[j].category == c;
  }

  /**
   * The card's category line: the brand's distinct categories, first three only. Each is
   * the category of one of the brand's products, and fewer than three are shown only
   * when the brand has fewer.
   */
  function BrandCategories(products: seq<Product>, brand: string): (cs: seq<string>)
    ensures |cs| <= 3
    ensures var all := BrandCategoryList(products, brand);
      cs == all[..if |all| <= 3 then |all| else 3]
    ensures Seqs.Distinct(cs)
    ensures forall i :: 0 <= i < |cs| ==>
      exists j :: 0 <= j < |products| && products[j].brand == brand && products[j].category == cs[i]
    ensures |cs| < 3 ==> forall i :: 0 <= i < |products| && products[i].brand == brand ==> products[i].category in cs
  {
    var all := BrandCategoryList(products, brand);
    Seqs.TakeDistinct(all, 3);
    Seqs.Take(all, 3)
  }

  /** The badge: `brandProducts.length`, the number of the brand's products, duplicates included. */
  function BadgeCount(products: seq<Product>, brand: string): (n: nat)
    ensures n == Seqs.Count(products, OfBrand(brand))
    ensures n <= |products|
    ensures n > 0 <==> exists i :: 0 <= i < |products| && products[i].brand == brand
  {
    var ps := BrandProducts(products, brand);
    assert |ps| > 0 ==> ps[0] in products;
    |ps|
  }

  predicate NotSpace(c: char) { c != ' ' }

  function RemoveSpaces(s: string): string {
    Seqs.Filter(s, NotSpace)
  }

  /** The card's image file: the brand lower-cased (ASCII letters only), spaces dropped, with ".jpg" added. */
  function BrandImage(brand: string): (file: string)
    ensures |file| >= 4 && file[|file| - 4..] == ".jpg"
    ensures forall i :: 0 <= i < |file| - 4 ==> file[i] != ' ' && !IsUpperAscii(file[i])
    ensures |file| - 4 <= |brand|
    ensures Seqs.Subseq(file[..|file| - 4], ToLower(brand))
    ensures |file| - 4 == Seqs.Count(brand, NotSpace)
  {
    var stem := RemoveSpaces(ToLower(brand));
    assert forall i :: 0 <= i < |stem| ==> stem[i] in ToLower(brand);
    Seqs.FilterIsSubseq(ToLower(brand), NotSpace);
    LowerKeepsSpaces(brand);
    assert (stem + ".jpg")[..|stem|] == stem;
    stem + ".jpg"
  }

  /** Lower-casing turns no character into a space and no space into anything else. */
  lemma {:induction false} LowerKeepsSpaces(s: string)
    ensures Seqs.Count(ToLower(s), NotSpace) == Seqs.Count(s, NotSpace)
  {
    if |s| > 0 {
      assert ToLower(s)[1..] == ToLower(s[1..]);
      LowerKeepsSpaces(s[1..]);
    }
  }

  lemma {:induction false} RemoveSpacesSpread(a: string, b: string)
    ensures RemoveSpaces(a + b) == RemoveSpaces(a) + RemoveSpaces(b)
  {
    if |a| > 0 {
      assert (a + b)[1..] == a[1..] + b;
      RemoveSpacesSpread(a[1..], b);
    } else {
      assert a + b == b;
    }
  }

  /** Brands spelled with different ASCII case share one image file. */
  lemma BrandImageIgnoresCase(brand: string)
    ensures BrandImage(ToUpper(brand)) == BrandImage(brand)
  {
    ToLowerOfToUpper(brand);
  }

  /** Trailing spaces after a brand name do not change its image file. */
  lemma BrandImageIgnoresTrailingSpaces(brand: string, pad: string)
    requires forall i :: 0 <= i < |pad| ==> pad[i] == ' '
    ensures BrandImage(brand + pad) == BrandImage(brand)
  {
    assert ToLower(brand + pad) == ToLower(brand) + ToLower(pad);
    assert ToLower(pad) == pad;
    RemoveSpacesSpread(ToLower(brand), pad);
    AllSpacesRemoved(pad);
    assert RemoveSpaces(ToLower(brand)) + [] == RemoveSpaces(ToLower(brand));
  }

  lemma {:induction false} AllSpacesRemoved(pad: string)
    requires forall i :: 0 <= i < |pad| ==> pad[i] == ' '
    ensures RemoveSpaces(pad) == []
  {
    if |pad| > 0 {
      AllSpacesRemoved(pad[1..]);
    }
  }
}

=== FILE: client_cart.dfy ===
/**
 * The browser cart of static/assets/js/cart.js: the guard on the quantity typed into
 * the prompt, the local +/- quantity buttons, and how a fetched cart is read.
 * The client's cart lines are the same records the server stores, so they are `Cart.Line`s.
 */
module ClientCart {
  import opened Options
  import opened Json
  import opened Numerals
  import Seqs
  import Cart

  /** The count typed into the prompt, read with `parseInt`; a cancelled prompt (None) is read as the text "null". */
  function EnteredQuantity(entered: Option<string>): Option<int> {
    JsParseInt(entered.GetOr("null"))
  }

  /**
   * `addToCart`: the line posted to the server, or None when the entered quantity is NaN
   * or not positive (the alert path, nothing is sent).
   */
  function AddToCartRequest(productId: string, details: Fields, entered: Option<string>): (sent: Option<Cart.Line>)
    ensures sent.Some? <==> EnteredQuantity(entered).Some? && EnteredQuantity(entered).value > 0
    ensures sent.Some? ==> sent.value.quantity > 0
    ensures sent.Some? ==>
      sent.value == Cart.Line(productId, EnteredQuantity(entered).value, details)
  {
    var q := EnteredQuantity(entered);
    if q.None? || q.value <= 0 then None else Some(Cart.Line(productId, q.value, details))
  }

  /** Cancelling the prompt sends nothing. */
  lemma CancelledPromptSendsNothing(productId: string, details: Fields)
    ensures AddToCartRequest(productId, details, None) == None
  {
    JsParseIntOfNull();
  }

  /** A positive count typed in, followed by anything that is not a digit, is sent as that count. */
  lemma TypedCountIsSent(productId: string, details: Fields, n: nat, rest: string)
    requires n > 0
    requires |rest| > 0 ==> !IsDigitIn(rest[0], 10)
    ensures AddToCartRequest(productId, details, Some(NatToString(n) + rest))
      == Some(Cart.Line(productId, n, details))
  {
    JsParseIntReadsPrefix(n, rest);
  }

  /** Zero or a negative count is refused, whatever follows it. */
  lemma NonPositiveCountRefused(productId: string, details: Fields, i: int, rest: string)
    requires i <= 0
    requires |rest| > 0 ==> !IsDigitIn(rest[0], 10)
    requires i == 0 && |rest| > 0 ==> rest[0] != 'x' && rest[0] != 'X'
    ensures AddToCartRequest(productId, details, Some(IntToString(i) + rest)) == None
  {
    JsParseIntReadsPrefix(i, rest);
  }

  /** Reading a stored whole-number quantity back with `parseInt` gives that quantity. */
  lemma StoredQuantityParses(q: int)
    ensures JsParseInt(IntToString(q)) == Some(q)
  {
    JsParseIntReadsPrefix(q, "");
    assert IntToString(q) + "" == IntToString(q);
  }

  function Without(cart: seq<Cart.Line>, pid: string): seq<Cart.Line> {
    Seqs.Filter(cart, (l: Cart.Line) => l.productId != pid)
  }

  /** Every line is either one of the product's lines or one that dropping them keeps. */
  lemma {:induction false} WithoutAndLinesFor(cart: seq<Cart.Line>, pid: string)
    ensures |Without(cart, pid)| + |Cart.LinesFor(cart, pid)| == |cart|
  {
    if |cart| > 0 {
      WithoutAndLinesFor(cart[1..], pid);
    }
  }

  /**
   * `updateQuantity`: the first line for the product takes the change; if that leaves it
   * at zero or below, every line for the product is dropped. An unknown product changes nothing.
   */
  function UpdateQuantity(cart: seq<Cart.Line>, pid: string, change: int): (r: seq<Cart.Line>)
    ensures !Cart.Contains(cart, pid) ==> r == cart
    ensures Cart.Contains(cart, pid) ==>
      var k := Cart.FirstMatch(cart, pid).value;
      if cart[k].quantity + change <= 0 then
        && Seqs.Subseq(r, cart)
        && |r| == |cart| - |Cart.LinesFor(cart, pid)|
        && (forall i :: 0 <= i < |r| ==> r[i].productId != pid)
      else
        && |r| == |cart|
        && r[k] == cart[k].(quantity := cart[k].quantity + change)
        && (forall j :: 0 <= j < |cart| && j != k ==> r[j] == cart[j])
  {
    match Cart.FirstMatch(cart, pid)
    case None => cart
    case Some(k) =>
      var q := cart[k].quantity + change;
      if q <= 0 then
        Seqs.FilterIsSubseq(cart, (l: Cart.Line) => l.productId != pid);
        WithoutAndLinesFor(cart, pid);
        Without(cart, pid)
      else cart[k := cart[k].(quantity := q)]
  }

  /** Two carts that differ only in lines of other products hold the same lines for `pid`. */
  lemma {:induction false} LinesForAgree(a: seq<Cart.Line>, b: seq<Cart.Line>, pid: string)
    requires |a| == |b|
    requires forall i :: 0 <= i < |a| ==> a[i] == b[i] || (a[i].productId != pid && b[i].productId != pid)
    ensures Cart.LinesFor(a, pid) == Cart.LinesFor(b, pid)
  {
    if |a| > 0 {
      LinesForAgree(a[1..], b[1..], pid);
    }
  }

  /** Dropping one product's lines leaves every other product's lines as they were. */
  lemma {:induction false} WithoutKeepsOthers(cart: seq<Cart.Line>, pid: string, other: string)
    requires other != pid
    ensures Cart.LinesFor(Without(cart, pid), other) == Cart.LinesFor(cart, other)
  {
    if |cart| > 0 {
      WithoutKeepsOthers(cart[1..], pid, other);
    }
  }

  /** The buttons of one product never touch another product's lines. */
  lemma UpdateKeepsOtherProducts(cart: seq<Cart.Line>, pid: string, change: int, other: string)
    requires other != pid
    ensures Cart.LinesFor(UpdateQuantity(cart, pid, change), other) == Cart.LinesFor(cart, other)
  {
    match Cart.FirstMatch(cart, pid)
    case None =>
    case Some(k) =>
      if cart[k].quantity + change <= 0 {
        WithoutKeepsOthers(cart, pid, other);
      } else {
        LinesForAgree(UpdateQuantity(cart, pid, change), cart, other);
      }
  }

  /**
   * On a cart with one line per product, the product's total moves by `change`, and
   * drops to nothing (no line left) once it would reach zero or below.
   */
  lemma UpdateMovesQuantity(cart: seq<Cart.Line>, pid: string, change: int)
    requires Cart.DistinctIds(cart)
    requires Cart.Contains(cart, pid)
    ensures var r := UpdateQuantity(cart, pid, change);
      var q := Cart.QtyOf(cart, pid) + change;
      && (q <= 0 ==> !Cart.Contains(r, pid) && Cart.QtyOf(r, pid) == 0)
      && (q > 0 ==> Cart.DistinctIds(r) && Cart.QtyOf(r, pid) == q)
  {
    var k := Cart.FirstMatch(cart, pid).value;
    var r := UpdateQuantity(cart, pid, change);
    Cart.QtyOfDistinct(cart, k);
    if cart[k].quantity + change <= 0 {
      Cart.QtyOfAbsent(r, pid);
    } else {
      assert forall j :: 0 <= j < |r| ==> r[j].productId == cart[j].productId;
      Cart.QtyOfDistinct(r, k);
    }
  }

  /**
   * The cart the page takes from the parsed body: its `cart` member when that is truthy under
   * JavaScript rules, else the empty list; reading a member of `null` throws (None).
   */
  function FetchedCart(data: Value): (c: Option<Value>)
    ensures c.None? <==> data.Null?
    ensures c.Some? && c.value != Arr([]) ==>
      data.Obj? && Get(data.fields, "cart") == Some(c.value) && JsTruthy(c.value)
    ensures data.Obj? && Get(data.fields, "cart").Some? && JsTruthy(Get(data.fields, "cart").value) ==>
      c == Get(data.fields, "cart")
  {
    match data
    case Null => None
    case Obj(fields) =>
      var member := Get(fields, "cart");
      if member.Some? && JsTruthy(member.value) then member else Some(Arr([]))
    case _ => Some(Arr([]))
  }

  /**
   * As written: `get_cart` answers a bare list, which has no `cart` member, so once an add
   * has stored the user's line, fetching the cart still gives the page an empty cart.
   */
  lemma ClientCartEmptyAfterAdd(table: Cart.CartTable, userId: string, incoming: Cart.Line)
    ensures var after := Cart.AddToCart(table, userId, incoming).table;
      && Cart.Contains(Cart.StoredCart(after, userId), incoming.productId)
      && FetchedCart(Cart.GetCart(after, userId).body.doc) == Some(Arr([]))
  {
    var after := Cart.AddToCart(table, userId, incoming).table;
    var before := Cart.StoredCart(table, userId);
    if !Cart.Contains(before, incoming.productId) {
      assert Cart.StoredCart(after, userId)[|before|] == incoming;
    }
  }

  /** Corrected: with the `{"cart": [...]}` body the page shows exactly the stored lines. */
  lemma ClientCartWithWrappedBody(table: Cart.CartTable, userId: string)
    ensures FetchedCart(Cart.GetCartWrapped(table, userId).body.doc)
      == Some(Cart.CartJson(Cart.StoredCart(table, userId)))
  {
  }
}

=== FILE: http.dfy ===
/** The Lambda proxy response envelope: a status code and a body. */
module Http {
  import opened Options
  import opened Json

  /**
   * A response body: `Doc` is `json.dumps` of a value; `Text` is a raw string body
   * that was never JSON-encoded (the S3 gateway's "Invalid file location").
   */
  datatype Body = Text(text: string) | Doc(doc: Value)

  datatype Response = Response(status: int, body: Body)

  /** The `{"message": text}` body every handler uses for errors and confirmations. */
  function Message(status: int, text: string): (r: Response)
    ensures r.status == status
    ensures MessageOf(r) == Some(text)
  {
    Response(status, Doc(Obj([("message", Str(text))])))
  }

  /** The text under the `message` key of a JSON object body, if there is one. */
  function MessageOf(r: Response): Option<string> {
    match r.body
    case Doc(Obj(f)) =>
      (match Get(f, "message")
       case Some(Str(t)) => Some(t)
       case _ => None)
    case _ => None
  }
}

=== FILE: images.dfy ===
/**
 * handlers/imageHandler.py: uploading a base64 image under a folder chosen by its type,
 * and listing the brand images as public object URLs.
 */
module Images {
  import opened Options
  import opened Json
  import opened Http
  import opened Strings

  /** The folder of an upload: brand images and product images are kept apart. */
  function Folder(imageType: string): (f: string)
    ensures f == "brand_images/" <==> imageType == "brand"
    ensures f != "brand_images/" ==> f == "product_images/"
  {
    if imageType == "brand" then "brand_images/" else "product_images/"
  }

  /** The object key of an upload: the folder, then the image name, then ".jpg". */
  function ImageKey(imageType: string, imageName: string): (k: string)
    ensures |k| == |Folder(imageType)| + |imageName| + 4
    ensures StartsWith(k, Folder(imageType))
    ensures k[|Folder(imageType)|..|k| - 4] == imageName
    ensures k[|k| - 4..] == ".jpg"
  {
    var k := Folder(imageType) + imageName + ".jpg";
    assert k[..|Folder(imageType)|] == Folder(imageType);
    k
  }

  function UrlPrefix(bucket: string): string {
    "https://" + bucket + ".s3.amazonaws.com/"
  }

  /**
   * The public address of an object: the bucket's virtual-host address, then the key.
   * UrlNamesKey shows that the key can be read back from the address.
   */
  function ObjectUrl(bucket: string, key: string): (u: string)
    ensures StartsWith(u, UrlPrefix(bucket))
  {
    var u := UrlPrefix(bucket) + key;
    assert u[..|UrlPrefix(bucket)|] == UrlPrefix(bucket);
    u
  }

  /** The object key a URL of the bucket names, None for a URL of anything else. */
  function KeyOfUrl(bucket: string, url: string): Option<string> {
    if StartsWith(url, UrlPrefix(bucket)) then Some(url[|UrlPrefix(bucket)|..]) else None
  }

  /** Every URL the handlers hand out names exactly its object key. */
  lemma UrlNamesKey(bucket: string, key: string)
    ensures KeyOfUrl(bucket, ObjectUrl(bucket, key)) == Some(key)
  {
    assert (UrlPrefix(bucket) + key)[|UrlPrefix(bucket)|..] == key;
  }

  /** The three body members `upload_image` reads; None when the member is absent. */
  datatype UploadRequest = UploadRequest(imageData: Option<string>, imageType: Option<string>, imageName: Option<string>)

  /** A `put_object` call: the decoded bytes are not modelled, only where they go. */
  datatype PutObject = PutObject(bucket: string, key: string, contentType: string)

  datatype UploadResult = UploadResult(response: Response, puts: seq<PutObject>)

  predicate Given(v: Option<string>) {
    v.Some? && v.value != ""
  }

  predicate Complete(req: UploadRequest) {
    Given(req.imageData) && Given(req.imageType) && Given(req.imageName)
  }

  /**
   * `upload_image`: refuse a request missing any field with nothing uploaded; otherwise
   * decode, put the object under its key and return its URL. A decode or upload error
   * answers 500.
   */
  function UploadImage(req: UploadRequest, bucket: string, decodeError: Option<string>,
                       putError: Option<string>): (r: UploadResult)
    ensures !Complete(req) <==>
      r == UploadResult(Message(400, "Missing required fields: image_data, image_type, or image_name"), [])
    ensures Complete(req) && decodeError.Some? ==>
      r == UploadResult(Message(500, "Error uploading image: " + decodeError.value), [])
    ensures Complete(req) && decodeError.None? ==>
      r.puts == [PutObject(bucket, ImageKey(req.imageType.value, req.imageName.value), "image/jpeg")]
    ensures Complete(req) && decodeError.None? && putError.Some? ==>
      r.response == Message(500, "Error uploading image: " + putError.value)
    ensures r.response.status == 200 <==> Complete(req) && decodeError.None? && putError.None?
    ensures r.response.status == 200 ==>
      r.response.body == Doc(Obj([("message", Str("Image uploaded successfully")),
                                  ("image_url", Str(ObjectUrl(bucket, ImageKey(req.imageType.value, req.imageName.value))))]))
  {
    if !Complete(req) then
      UploadResult(Message(400, "Missing required fields: image_data, image_type, or image_name"), [])
    else if decodeError.Some? then
      UploadResult(Message(500, "Error uploading image: " + decodeError.value), [])
    else
      var key := ImageKey(req.imageType.value, req.imageName.value);
      var puts := [PutObject(bucket, key, "image/jpeg")];
      if putError.Some? then UploadResult(Message(500, "Error uploading image: " + putError.value), puts)
      else
        UploadResult(Response(200, Doc(Obj([("message", Str("Image uploaded successfully")),
                                            ("image_url", Str(ObjectUrl(bucket, key)))]))), puts)
  }

  /** The answer of `list_objects_v2`: the keys under `Contents` (None without it), or a failure. */
  datatype Listing = Listed(contents: Option<seq<string>>) | ListFailed(reason: string)

  function UrlsOf(bucket: string, keys: seq<string>): (urls: seq<Value>)
    ensures |urls| == |keys|
    ensures forall i :: 0 <= i < |keys| ==> urls[i].Str? && KeyOfUrl(bucket, urls[i].s) == Some(keys[i])
  {
    if |keys| == 0 then []
    else
      UrlNamesKey(bucket, keys[0]);
      [Str(ObjectUrl(bucket, keys[0]))] + UrlsOf(bucket, keys[1..])
  }

  /** `get_brand_images`: one URL per listed object in listing order; none without `Contents`. */
  function GetBrandImages(bucket: string, listing: Listing): (r: Response)
    ensures listing.ListFailed? ==> r == Message(500, "Error retrieving brand images: " + listing.reason)
    ensures listing.Listed? ==>
      var keys := listing.contents.GetOr([]);
      && r.status == 200
      && r.body.Doc? && r.body.doc.Obj?
      && Get(r.body.doc.fields, "images") == Some(Arr(UrlsOf(bucket, keys)))
  {
    match listing
    case ListFailed(reason) => Message(500, "Error retrieving brand images: " + reason)
    case Listed(contents) =>
      Response(200, Doc(Obj([("message", Str("Brand images retrieved successfully")),
                             ("images", Arr(UrlsOf(bucket, contents.GetOr([]))))])))
  }
}

=== FILE: json.dfy ===
/**
 * Parsed JSON values as the handlers see them after `json.loads` / `response.json()`.
 * Numbers are integers: quantities and counts are whole numbers throughout the model.
 */
module Json {
  import opened Options

  datatype Value =
    | Null
    | Bool(b: bool)
    | Num(n: int)
    | Str(s: string)
    | Arr(items: seq<Value>)
    | Obj(fields: Fields)

  /** The members of a JSON object (a Python dict), in insertion order. */
  type Fields = seq<(string, Value)>

  /** Python truthiness: `None`, `False`, `0`, `""`, `[]` and `{}` are falsy. */
  predicate Truthy(v: Value) {
    match v
    case Null => false
    case Bool(b) => b
    case Num(n) => n != 0
    case Str(s) => s != ""
    case Arr(xs) => xs != []
    case Obj(fs) => fs != []
  }

  /** JavaScript truthiness: unlike Python, an empty array or object is truthy. */
  predicate JsTruthy(v: Value) {
    match v
    case Null => false
    case Bool(b) => b
    case Num(n) => n != 0
    case Str(s) => s != ""
    case Arr(_) => true
    case Obj(_) => true
  }

  predicate HasKey(f: Fields, key: string) {
    exists i :: 0 <= i < |f| && f[i].0 == key
  }

  /** A Python dict: every key occurs once. Every parsed JSON object is one. */
  predicate IsDict(f: Fields) {
    forall i, j :: 0 <= i < j < |f| ==> f[i].0 != f[j].0
  }

  /** `d.get(key)`: the value stored under `key`, or None when the key is absent. */
  function Get(f: Fields, key: string): (r: Option<Value>)
    ensures r.None? <==> !HasKey(f, key)
    ensures r.Some? ==> exists i :: 0 <= i < |f| && f[i] == (key, r.value)
    ensures |f| > 0 && f[0].0 == key ==> r == Some(f[0].1)
  {
    if |f| == 0 then None
    else if f[0].0 == key then Some(f[0].1)
    else
      var r := Get(f[1..], key);
      assert r.Some? ==> exists i :: 1 <= i < |f| && f[i] == (key, r.value) by {
        if r.Some? {
          var i :| 0 <= i < |f[1..]| && f[1..][i] == (key, r.value);
          assert f[i + 1] == (key, r.value);
        }
      }
      r
  }

  /** With the key stored more than once, `Get` answers the first member stored under it. */
  lemma {:induction false} GetFindsFirst(f: Fields, key: string, i: nat)
    requires i < |f| && f[i].0 == key
    requires forall j :: 0 <= j < i ==> f[j].0 != key
    ensures Get(f, key) == Some(f[i].1)
  {
    if i > 0 {
      assert f[0].0 != key;
      assert f[1..][i - 1] == f[i];
      assert forall j :: 0 <= j < i - 1 ==> f[1..][j].0 != key by {
        assert forall j :: 0 <= j < i - 1 ==> f[1..][j] == f[j + 1];
      }
      GetFindsFirst(f[1..], key, i - 1);
    }
  }

  /** In a dict, `Get` finds the one member stored under the key. */
  lemma {:induction false} GetInDict(f: Fields, i: nat)
    requires IsDict(f)
    requires i < |f|
    ensures Get(f, f[i].0) == Some(f[i].1)
  {
    if i > 0 {
      assert f[0].0 != f[i].0;
      assert IsDict(f[1..]) by {
        forall a, b | 0 <= a < b < |f[1..]| ensures f[1..][a].0 != f[1..][b].0 {
          assert f[1..][a] == f[a + 1] && f[1..][b] == f[b + 1];
        }
      }
      GetInDict(f[1..], i - 1);
    }
  }

  /**
   * `d[key] = v`: an existing member keeps its position and takes the new value;
   * a new key is appended at the end.
   */
  function SetField(f: Fields, key: string, v: Value): (r: Fields)
    ensures Get(r, key) == Some(v)
    ensures forall k :: k != key ==> Get(r, k) == Get(f, k)
    ensures HasKey(f, key) ==> |r| == |f|
    ensures !HasKey(f, key) ==> r == f + [(key, v)]
  {
    if |f| == 0 then [(key, v)]
    else if f[0].0 == key then [(key, v)] + f[1..]
    else
      var t := SetField(f[1..], key, v);
      var r := [f[0]] + t;
      GetCons(f[0], t);
      GetCons(f[0], f[1..]);
      assert [f[0]] + f[1..] == f;
      HasKeyTail(f, key);
      r
  }

  lemma HasKeyTail(f: Fields, key: string)
    requires |f| > 0 && f[0].0 != key
    ensures HasKey(f, key) <==> HasKey(f[1..], key)
  {
    if HasKey(f[1..], key) {
      var i :| 0 <= i < |f[1..]| && f[1..][i].0 == key;
      assert f[i + 1].0 == key;
    }
    if HasKey(f, key) {
      var i :| 0 <= i < |f| && f[i].0 == key;
      assert f[1..][i - 1].0 == key;
    }
  }

  /** A key other than the first member's is looked up in the rest. */
  lemma GetSkip(f: Fields, key: string)
    requires |f| > 0 && f[0].0 != key
    ensures Get(f, key) == Get(f[1..], key)
  {
  }

  /** Looking up in a dict with one more member in front. */
  lemma GetCons(x: (string, Value), rest: Fields)
    ensures forall k :: Get([x] + rest, k) == if x.0 == k then Some(x.1) else Get(rest, k)
  {
    assert ([x] + rest)[1..] == rest;
  }
}

=== FILE: numerals.dfy ===
/**
 * Integer <-> text conversions: Python's `str(n)` and `int(s)`, JavaScript's `parseInt(s)`.
 */
module Numerals {
  import opened Options
  import opened Strings

  /** The value of a digit character in bases up to 36; 36 for any other character. */
  function CharValue(c: char): nat {
    if '0' <= c <= '9' then c as int - '0' as int
    else if 'a' <= c <= 'z' then c as int - 'a' as int + 10
    else if 'A' <= c <= 'Z' then c as int - 'A' as int + 10
    else 36
  }

  predicate IsDigitIn(c: char, radix: nat) {
    CharValue(c) < radix
  }

  predicate AllDigitsIn(s: string, radix: nat) {
    forall i :: 0 <= i < |s| ==> IsDigitIn(s[i], radix)
  }

  /** The number a digit string denotes in `radix`, most significant digit first. */
  function ValueIn(s: string, radix: nat): nat {
    if |s| == 0 then 0 else ValueIn(s[..|s| - 1], radix) * radix + CharValue(s[|s| - 1])
  }

  function DigitChar(d: nat): (c: char)
    requires d < 10
    ensures IsDigitIn(c, 10) && CharValue(c) == d
  {
    ('0' as int + d) as char
  }

  /** `str(n)` for a natural number: decimal digits without leading zeros. */
  function NatToString(n: nat): (s: string)
    ensures |s| >= 1 && AllDigitsIn(s, 10)
    ensures ValueIn(s, 10) == n
    ensures s[0] == '0' ==> s == "0"
  {
    if n < 10 then [DigitChar(n)]
    else
      var s := NatToString(n / 10) + [DigitChar(n % 10)];
      assert s[..|s| - 1] == NatToString(n / 10);
      s
  }

  /** `str(i)` / `String(i)` for any integer. */
  function IntToString(i: int): (s: string)
    ensures |s| >= 1
    ensures s[0] == '-' <==> i < 0
    ensures i < 0 ==> s[1..] == NatToString(-i)
    ensures i >= 0 ==> s == NatToString(i)
  {
    if i < 0 then "-" + NatToString(-i) else NatToString(i)
  }

  /** A number text split into its optional leading sign and the rest. */
  datatype Signed = Signed(negative: bool, rest: string)

  function TakeSign(s: string): (r: Signed)
    ensures |r.rest| <= |s|
  {
    if |s| > 0 && s[0] == '-' then Signed(true, s[1..])
    else if |s| > 0 && s[0] == '+' then Signed(false, s[1..])
    else Signed(false, s)
  }

  function ApplySign(negative: bool, n: nat): int {
    if negative then -(n as int) else n
  }

  /** An optional sign and then at least one decimal digit, nothing else. */
  predicate SignedDecimal(t: string) {
    |t| > 0 && if t[0] == '-' || t[0] == '+' then |t| > 1 && AllDigitsIn(t[1..], 10) else AllDigitsIn(t, 10)
  }

  /**
   * The white space Python's `int()` skips around the number: `str.isspace()`'s set
   * less the four information separators U+001C..U+001F, which `int()` refuses.
   */
  predicate IsIntSpace(c: char) {
    IsPySpace(c) && !('\U{1C}' <= c <= '\U{1F}')
  }

  function IntStripLeft(s: string): (r: string)
    ensures |r| <= |s| && r == s[|s| - |r|..]
    ensures forall i :: 0 <= i < |s| - |r| ==> IsIntSpace(s[i])
    ensures |r| > 0 ==> !IsIntSpace(r[0])
  {
    if |s| > 0 && IsIntSpace(s[0]) then IntStripLeft(s[1..]) else s
  }

  function IntStripRight(s: string): (r: string)
    ensures |r| <= |s| && r == s[..|r|]
    ensures forall i :: |r| <= i < |s| ==> IsIntSpace(s[i])
    ensures |r| > 0 ==> !IsIntSpace(r[|r| - 1])
  {
    if |s| > 0 && IsIntSpace(s[|s| - 1]) then IntStripRight(s[..|s| - 1]) else s
  }

  /** The text `int()` reads: `s` without the leading and trailing white space of IsIntSpace. */
  function IntStrip(s: string): (r: string)
    ensures |r| > 0 ==> !IsIntSpace(r[0]) && !IsIntSpace(r[|r| - 1])
    ensures |r| <= |s|
    ensures (forall i :: 0 <= i < |s| ==> !IsIntSpace(s[i])) ==> r == s
  {
    IntStripRight(IntStripLeft(s))
  }

  /** IntStrip removes white space at the two ends and nothing else. */
  lemma IntStripIsMiddle(s: string) returns (i: nat)
    ensures i + |IntStrip(s)| <= |s| && IntStrip(s) == s[i..i + |IntStrip(s)|]
    ensures forall k :: 0 <= k < i ==> IsIntSpace(s[k])
    ensures forall k :: i + |IntStrip(s)| <= k < |s| ==> IsIntSpace(s[k])
  {
    var l := IntStripLeft(s);
    i := |s| - |l|;
    var r := IntStripRight(l);
    assert l == s[i..] && r == l[..|r|];
    forall k | i + |r| <= k < |s|
      ensures IsIntSpace(s[k])
    {
      assert s[k] == l[k - i];
    }
  }

  /**
   * Python's `int(s)` on a string: white space around an optionally signed run of
   * decimal digits; None stands for the ValueError raised on anything else.
   */
  function PyIntOfString(s: string): (r: Option<int>)
    ensures r.Some? <==> SignedDecimal(IntStrip(s))
    ensures r.Some? && r.value < 0 ==> IntStrip(s)[0] == '-'
  {
    var sg := TakeSign(IntStrip(s));
    if |sg.rest| > 0 && AllDigitsIn(sg.rest, 10) then
      assert sg.rest[0] in IntStrip(s);
      Some(ApplySign(sg.negative, ValueIn(sg.rest, 10)))
    else None
  }

  /**
   * `int()` refuses text that starts with an information separator, although
   * `str.strip()` would remove it.
   */
  lemma SeparatorRefused(c: char, s: string)
    requires '\U{1C}' <= c <= '\U{1F}'
    ensures IsPySpace(c)
    ensures PyIntOfString([c] + s) == None
  {
    var t := [c] + s;
    assert t[0] == c;
    NoNumberAfterOtherStart(t);
  }

  /** Text whose first character is neither white space, a sign nor a digit is no number. */
  lemma NoNumberAfterOtherStart(t: string)
    requires |t| > 0 && !IsIntSpace(t[0]) && t[0] != '-' && t[0] != '+' && !IsDigitIn(t[0], 10)
    ensures PyIntOfString(t) == None
  {
    var r := IntStrip(t);
    KeepsFirst(t);
    if |r| > 0 {
      assert !AllDigitsIn(r, 10) by { assert !IsDigitIn(r[0], 10); }
    }
  }

  /** Stripping text that does not start with white space keeps its first character. */
  lemma KeepsFirst(t: string)
    requires |t| > 0 && !IsIntSpace(t[0])
    ensures |IntStrip(t)| > 0 ==> IntStrip(t)[0] == t[0]
  {
    assert IntStripLeft(t) == t;
  }

  /**
   * The value `int()` gives: white space, an optional sign, decimal digits (leading zeros
   * allowed) and white space read as the signed value of the digits.
   */
  lemma PyIntOfPaddedDigits(lead: string, sign: string, d: string, trail: string)
    requires forall k :: 0 <= k < |lead| ==> IsIntSpace(lead[k])
    requires forall k :: 0 <= k < |trail| ==> IsIntSpace(trail[k])
    requires sign == "" || sign == "+" || sign == "-"
    requires |d| > 0 && AllDigitsIn(d, 10)
    ensures PyIntOfString(lead + sign + d + trail) == Some(ApplySign(sign == "-", ValueIn(d, 10)))
  {
    StripsToSignedDigits(lead, sign, d, trail);
    ReadsSignedText(lead + sign + d + trail, sign, d);
  }

  lemma StripsToSignedDigits(lead: string, sign: string, d: string, trail: string)
    requires forall k :: 0 <= k < |lead| ==> IsIntSpace(lead[k])
    requires forall k :: 0 <= k < |trail| ==> IsIntSpace(trail[k])
    requires sign == "" || sign == "+" || sign == "-"
    requires |d| > 0 && AllDigitsIn(d, 10)
    ensures IntStrip(lead + sign + d + trail) == sign + d
  {
    var x := sign + d;
    DigitIsNoSpaceOrSign(d[0]);
    DigitIsNoSpaceOrSign(d[|d| - 1]);
    assert x[0] == (if sign == "" then d[0] else sign[0]);
    assert !IsIntSpace(x[0]);
    assert x[|x| - 1] == d[|d| - 1];
    ConcatAssoc(lead + sign, d, trail);
    ConcatAssoc(lead, sign, d + trail);
    ConcatAssoc(sign, d, trail);
    IntStripLeftSpaces(lead, x + trail);
    IntStripRightSpaces(x, trail);
  }

  lemma DigitIsNoSpaceOrSign(c: char)
    requires IsDigitIn(c, 16)
    ensures !IsIntSpace(c) && !IsJsSpace(c) && c != '-' && c != '+'
  {
  }

  lemma ReadsSignedText(t: string, sign: string, d: string)
    requires sign == "" || sign == "+" || sign == "-"
    requires |d| > 0 && AllDigitsIn(d, 10)
    requires IntStrip(t) == sign + d
    ensures PyIntOfString(t) == Some(ApplySign(sign == "-", ValueIn(d, 10)))
  {
    DigitIsNoSpaceOrSign(d[0]);
    assert TakeSign(sign + d) == Signed(sign == "-", d);
  }

  /** Leading white space is skipped up to the first other character. */
  lemma {:induction false} IntStripLeftSpaces(w: string, x: string)
    requires forall k :: 0 <= k < |w| ==> IsIntSpace(w[k])
    requires |x| > 0 && !IsIntSpace(x[0])
    ensures IntStripLeft(w + x) == x
  {
    if |w| == 0 {
      assert w + x == x;
    } else {
      assert (w + x)[1..] == w[1..] + x;
      IntStripLeftSpaces(w[1..], x);
    }
  }

  /** Trailing white space is dropped back to the last other character. */
  lemma {:induction false} IntStripRightSpaces(x: string, w: string)
    requires forall k :: 0 <= k < |w| ==> IsIntSpace(w[k])
    requires |x| > 0 && !IsIntSpace(x[|x| - 1])
    ensures IntStripRight(x + w) == x
  {
    if |w| == 0 {
      assert x + w == x;
    } else {
      var v := w[..|w| - 1];
      assert (x + w)[..|x + w| - 1] == x + v;
      IntStripRightSpaces(x, v);
    }
  }

  /** A leading zero does not change the value of a digit string. */
  lemma {:induction false} ValueInLeadingZero(d: string, radix: nat)
    ensures ValueIn("0" + d, radix) == ValueIn(d, radix)
  {
    if |d| == 0 {
      assert ("0" + d)[..0] == "";
    } else {
      var e := d[..|d| - 1];
      assert ("0" + d)[..|d|] == "0" + e;
      ValueInLeadingZero(e, radix);
    }
  }

  /** Python's `int(str(i))` gives `i` back. */
  lemma PyIntRoundTrip(i: int)
    ensures PyIntOfString(IntToString(i)) == Some(i)
  {
    var s := IntToString(i);
    IntTextHasNoSpace(i);
    assert IntStrip(s) == s;
    var n: nat := if i < 0 then -i else i;
    IntTextSign(i);
    assert TakeSign(IntStrip(s)).rest == NatToString(n);
  }

  /** The text of an integer is a sign and digits, so it holds no white space. */
  lemma IntTextHasNoSpace(i: int)
    ensures forall k :: 0 <= k < |IntToString(i)| ==> !IsIntSpace(IntToString(i)[k])
  {
    var s := IntToString(i);
    forall k | 0 <= k < |s| ensures !IsIntSpace(s[k]) {
      if k > 0 || i >= 0 {
        DecimalDigitRange(s[k]);
      }
    }
  }

  /** Taking the sign off the text of an integer leaves the digits of its magnitude. */
  lemma IntTextSign(i: int)
    ensures TakeSign(IntToString(i)) == Signed(i < 0, NatToString(if i < 0 then -i else i))
  {
    var s := IntToString(i);
    if i >= 0 {
      DecimalDigitRange(s[0]);
    }
  }

  /** The longest prefix of `s` made of digits of `radix`. */
  function DigitPrefix(s: string, radix: nat): (r: string)
    ensures |r| <= |s| && r == s[..|r|]
    ensures AllDigitsIn(r, radix)
    ensures |r| < |s| ==> !IsDigitIn(s[|r|], radix)
  {
    if |s| > 0 && IsDigitIn(s[0], radix) then
      var r := [s[0]] + DigitPrefix(s[1..], radix);
      assert s[..|r|] == [s[0]] + s[1..][..|r| - 1];
      r
    else ""
  }

  /** Leading characters JavaScript's `parseInt` skips. */
  function DropJsSpace(s: string): (r: string)
    ensures |r| <= |s| && r == s[|s| - |r|..]
    ensures |r| > 0 ==> !IsJsSpace(r[0])
  {
    if |s| > 0 && IsJsSpace(s[0]) then DropJsSpace(s[1..]) else s
  }

  /** After the sign, `0x`/`0X` switches `parseInt` without a radix argument to base 16. */
  predicate HexMarked(u: string) {
    |u| >= 2 && u[0] == '0' && (u[1] == 'x' || u[1] == 'X')
  }

  /** What follows the sign starts a number: a digit, or `0x` and a hexadecimal digit. */
  predicate JsNumberStart(u: string) {
    if HexMarked(u) then |u| > 2 && IsDigitIn(u[2], 16) else |u| > 0 && IsDigitIn(u[0], 10)
  }

  /**
   * JavaScript's `parseInt(s)` with no radix: skip leading whitespace, take an optional
   * sign, then the longest run of digits (hexadecimal after `0x`); trailing text is
   * ignored. None stands for `NaN`, returned when there is no digit at all.
   */
  function JsParseInt(s: string): (r: Option<int>)
    ensures r.Some? <==> JsNumberStart(TakeSign(DropJsSpace(s)).rest)
    ensures r.Some? && r.value < 0 ==> TakeSign(DropJsSpace(s)).negative
  {
    var sg := TakeSign(DropJsSpace(s));
    var u := sg.rest;
    var radix := if HexMarked(u) then 16 else 10;
    var digits := if HexMarked(u) then u[2..] else u;
    var z := DigitPrefix(digits, radix);
    assert z == "" <==> !(|digits| > 0 && IsDigitIn(digits[0], radix));
    if z == "" then None
    else Some(ApplySign(sg.negative, ValueIn(z, radix)))
  }

  lemma {:induction false} DigitPrefixOfDigits(d: string, rest: string, radix: nat)
    requires AllDigitsIn(d, radix)
    requires |rest| > 0 ==> !IsDigitIn(rest[0], radix)
    ensures DigitPrefix(d + rest, radix) == d
  {
    var s := d + rest;
    if |d| > 0 {
      assert s[0] == d[0] && IsDigitIn(d[0], radix);
      assert s[1..] == d[1..] + rest;
      assert AllDigitsIn(d[1..], radix);
      DigitPrefixOfDigits(d[1..], rest, radix);
      assert DigitPrefix(s, radix) == [d[0]] + d[1..];
      assert [d[0]] + d[1..] == d;
    } else {
      assert s == rest;
    }
  }


  /**
   * `parseInt` reads back what `String(i)` wrote, also when other text follows, as
   * long as that text does not start with a digit (or with `x` right after a lone 0).
   */
  lemma {:induction false} JsParseIntReadsPrefix(i: int, rest: string)
    requires |rest| > 0 ==> !IsDigitIn(rest[0], 10)
    requires i == 0 && |rest| > 0 ==> rest[0] != 'x' && rest[0] != 'X'
    ensures JsParseInt(IntToString(i) + rest) == Some(i)
  {
    var n: nat := if i < 0 then -i else i;
    SignedText(i, rest);
    ReadsSignedDigits(IntToString(i) + rest, i < 0, n, rest);
  }

  lemma SignedText(i: int, rest: string)
    ensures DropJsSpace(IntToString(i) + rest) == IntToString(i) + rest
    ensures TakeSign(IntToString(i) + rest) == Signed(i < 0, NatToString(if i < 0 then -i else i) + rest)
  {
    if i < 0 {
      NegativeText(i, rest);
    } else {
      NonNegativeText(i, rest);
    }
  }

  lemma NegativeText(i: int, rest: string)
    requires i < 0
    ensures DropJsSpace(IntToString(i) + rest) == IntToString(i) + rest
    ensures TakeSign(IntToString(i) + rest) == Signed(true, NatToString(-i) + rest)
  {
    var s := IntToString(i) + rest;
    assert s[0] == '-';
    assert s[1..] == NatToString(-i) + rest;
  }

  lemma NonNegativeText(i: int, rest: string)
    requires i >= 0
    ensures DropJsSpace(IntToString(i) + rest) == IntToString(i) + rest
    ensures TakeSign(IntToString(i) + rest) == Signed(false, NatToString(i) + rest)
  {
    var s := IntToString(i) + rest;
    assert s[0] == NatToString(i)[0];
    DecimalDigitRange(s[0]);
    assert !IsJsSpace(s[0]) && s[0] != '-' && s[0] != '+';
  }

  lemma DecimalDigitRange(c: char)
    requires IsDigitIn(c, 10)
    ensures '0' <= c <= '9'
  {
  }

  lemma ReadsSignedDigits(s: string, negative: bool, n: nat, rest: string)
    requires DropJsSpace(s) == s
    requires TakeSign(s) == Signed(negative, NatToString(n) + rest)
    requires |rest| > 0 ==> !IsDigitIn(rest[0], 10)
    requires n == 0 && |rest| > 0 ==> rest[0] != 'x' && rest[0] != 'X'
    ensures JsParseInt(s) == Some(ApplySign(negative, n))
  {
    var digits := NatToString(n);
    NotHexMarked(digits, rest, n);
    DigitPrefixOfDigits(digits, rest, 10);
    assert DigitPrefix(digits + rest, 10) == digits;
  }

  lemma NotHexMarked(digits: string, rest: string, n: nat)
    requires digits == NatToString(n)
    requires |rest| > 0 ==> !IsDigitIn(rest[0], 10)
    requires n == 0 && |rest| > 0 ==> rest[0] != 'x' && rest[0] != 'X'
    ensures !HexMarked(digits + rest)
  {
    var u := digits + rest;
    if |digits| == 1 {
      if |u| >= 2 { assert u[1] == rest[0]; }
    } else {
      assert u[1] == digits[1];
    }
  }

  /**
   * `parseInt` of white space, an optional sign and decimal digits, followed by text that
   * does not continue the number, is the signed value of the digits (leading zeros allowed).
   */
  lemma JsParseIntOfDecimal(lead: string, sign: string, d: string, rest: string)
    requires forall k :: 0 <= k < |lead| ==> IsJsSpace(lead[k])
    requires sign == "" || sign == "+" || sign == "-"
    requires |d| > 0 && AllDigitsIn(d, 10)
    requires |rest| > 0 ==> !IsDigitIn(rest[0], 10)
    requires |d| == 1 && d[0] == '0' && |rest| > 0 ==> rest[0] != 'x' && rest[0] != 'X'
    ensures JsParseInt(lead + sign + d + rest) == Some(ApplySign(sign == "-", ValueIn(d, 10)))
  {
    var u := d + rest;
    assert u[0] == d[0];
    DigitIsNoSpaceOrSign(d[0]);
    ConcatAssoc(lead + sign, d, rest);
    SignedJsText(lead, sign, u);
    DecimalNotHexMarked(d, rest);
    ReadsDigitRun(lead + sign + d + rest, sign == "-", u, d, 10, rest);
  }

  /** Decimal digits start no `0x` prefix unless a lone 0 is followed by `x` or `X`. */
  lemma DecimalNotHexMarked(d: string, rest: string)
    requires |d| > 0 && AllDigitsIn(d, 10)
    requires |d| == 1 && d[0] == '0' && |rest| > 0 ==> rest[0] != 'x' && rest[0] != 'X'
    ensures !HexMarked(d + rest)
  {
    var u := d + rest;
    if |u| >= 2 {
      if |d| >= 2 {
        assert u[1] == d[1] && IsDigitIn(d[1], 10);
      } else {
        assert u[0] == d[0] && u[1] == rest[0];
      }
    }
  }

  /**
   * `parseInt` of white space, an optional sign, `0x` or `0X` and hexadecimal digits,
   * followed by text that does not continue them, is the signed value of those digits.
   */
  lemma JsParseIntOfHex(lead: string, sign: string, x: string, h: string, rest: string)
    requires forall k :: 0 <= k < |lead| ==> IsJsSpace(lead[k])
    requires sign == "" || sign == "+" || sign == "-"
    requires x == "0x" || x == "0X"
    requires |h| > 0 && AllDigitsIn(h, 16)
    requires |rest| > 0 ==> !IsDigitIn(rest[0], 16)
    ensures JsParseInt(lead + sign + x + h + rest) == Some(ApplySign(sign == "-", ValueIn(h, 16)))
  {
    var u := x + (h + rest);
    assert u[0] == '0' && u[1] == x[1];
    DigitIsNoSpaceOrSign(u[0]);
    ConcatAssoc(lead + sign + x, h, rest);
    ConcatAssoc(lead + sign, x, h + rest);
    SignedJsText(lead, sign, u);
    assert HexMarked(u) && u[2..] == h + rest;
    ReadsDigitRun(lead + sign + x + h + rest, sign == "-", u, h, 16, rest);
  }

  lemma ConcatAssoc(a: string, b: string, c: string)
    ensures a + b + c == a + (b + c)
  {
  }

  /** Once the sign is taken, the digit run that follows (after `0x` in base 16) is the number. */
  lemma ReadsDigitRun(s: string, negative: bool, u: string, digits: string, radix: nat, rest: string)
    requires TakeSign(DropJsSpace(s)) == Signed(negative, u)
    requires radix == if HexMarked(u) then 16 else 10
    requires (if HexMarked(u) then u[2..] else u) == digits + rest
    requires |digits| > 0 && AllDigitsIn(digits, radix)
    requires |rest| > 0 ==> !IsDigitIn(rest[0], radix)
    ensures JsParseInt(s) == Some(ApplySign(negative, ValueIn(digits, radix)))
  {
    DigitPrefixOfDigits(digits, rest, radix);
  }

  /** White space, then a sign, then text that starts with neither. */
  lemma SignedJsText(lead: string, sign: string, u: string)
    requires forall k :: 0 <= k < |lead| ==> IsJsSpace(lead[k])
    requires sign == "" || sign == "+" || sign == "-"
    requires |u| > 0 && !IsJsSpace(u[0]) && u[0] != '-' && u[0] != '+'
    ensures TakeSign(DropJsSpace(lead + sign + u)) == Signed(sign == "-", u)
  {
    var y := sign + u;
    assert lead + sign + u == lead + y;
    if sign == "" {
      assert y == u;
      assert TakeSign(y) == Signed(false, u);
    } else if sign == "-" {
      assert y[0] == '-' && y[1..] == u;
      assert TakeSign(y) == Signed(true, u);
    } else {
      assert y[0] == '+' && y[1..] == u;
      assert TakeSign(y) == Signed(false, u);
    }
    DropJsSpaceLead(lead, y);
  }

  lemma {:induction false} DropJsSpaceLead(w: string, y: string)
    requires forall k :: 0 <= k < |w| ==> IsJsSpace(w[k])
    requires |y| > 0 && !IsJsSpace(y[0])
    ensures DropJsSpace(w + y) == y
  {
    if |w| == 0 {
      assert w + y == y;
    } else {
      assert (w + y)[1..] == w[1..] + y;
      DropJsSpaceLead(w[1..], y);
    }
  }

  /** Text that starts with neither white space, a sign nor a digit is NaN to `parseInt`. */
  lemma JsParseIntNoDigit(s: string)
    requires |s| > 0 && !IsJsSpace(s[0]) && s[0] != '-' && s[0] != '+' && !IsDigitIn(s[0], 16)
    ensures JsParseInt(s) == None
  {
    assert DropJsSpace(s) == s;
    assert TakeSign(s) == Signed(false, s);
    assert !HexMarked(s);
  }

  /** A cancelled prompt gives `null`, which `parseInt` turns into the text "null": NaN. */
  lemma JsParseIntOfNull()
    ensures JsParseInt("null") == None
  {
    var s := "null";
    assert s[0] == 'n';
    assert CharValue('n') == 23;
    JsParseIntNoDigit(s);
  }
}

=== FILE: options.dfy ===
/** The Some/None type used for Python's `None`, a missing key, and JavaScript's `NaN`. */
module Options {

  datatype Option<+T> = None | Some(value: T) {

    /** The carried value, or `default` when there is none (Python's `d.get(k, default)`). */
    function GetOr(default: T): T {
      match this
      case Some(v) => v
      case None => default
    }
  }

  /** The values of the leading `Some`s, up to the first `None`: a loop that stops at the first failure. */
  function TakeSome<T>(xs: seq<Option<T>>): (r: seq<T>)
    ensures |r| <= |xs|
    ensures forall i :: 0 <= i < |r| ==> xs[i] == Some(r[i])
    ensures |r| < |xs| ==> xs[|r|].None?
  {
    if |xs| == 0 || xs[0].None? then []
    else
      var rest := TakeSome(xs[1..]);
      var r := [xs[0].value] + rest;
      assert forall i :: 1 <= i < |r| ==> xs[i] == xs[1..][i - 1] && r[i] == rest[i - 1];
      r
  }

  /** A failure after the last element loses nothing taken before it. */
  lemma {:induction false} TakeSomeBeforeNone<T>(xs: seq<Option<T>>)
    ensures TakeSome(xs + [None]) == TakeSome(xs)
  {
    if |xs| == 0 {
      assert xs + [None] == [None];
    } else {
      assert (xs + [None])[1..] == xs[1..] + [None];
      TakeSomeBeforeNone(xs[1..]);
    }
  }

  /** When every element succeeds, all values are taken. */
  lemma TakeSomeAll<T>(xs: seq<Option<T>>, ys: seq<T>)
    requires |xs| == |ys|
    requires forall i :: 0 <= i < |xs| ==> xs[i] == Some(ys[i])
    ensures TakeSome(xs) == ys
  {
    var r := TakeSome(xs);
    assert |r| == |ys|;
  }
}

=== FILE: padeliver.dfy ===
/**
 * The handlers of handlers/padeliverHandler.py: viewing a product by id or by item name
 * (optionally with the user's cart quantity), adding an inventory movement, and
 * dispatching uploaded CSV files by key prefix.
 */
module Padeliver {
  import opened Options
  import opened Json
  import opened Http
  import opened Strings
  import opened Numerals
  import Cart

  /** A handler's result: a returned response, or an exception the handler does not catch. */
  datatype Reply = Returned(resp: Response) | Raised

  /** Which identifier survives header resolution. */
  datatype Resolution = ById(productId: string) | ByItem(item: string) | Unresolved

  /** A header value is falsy when absent or empty. */
  function Header(headers: map<string, string>, name: string): Option<string> {
    if name in headers then Some(headers[name]) else None
  }

  predicate Present(h: Option<string>) {
    h.Some? && h.value != ""
  }

  /**
   * Header resolution shared by both view handlers: `product_id: default` means "look up
   * by item"; any other `product_id` value, including none at all, discards the item header.
   */
  function ResolveHeaders(headers: map<string, string>): (r: Resolution)
    ensures r.ById? <==> Present(Header(headers, "product_id")) && headers["product_id"] != "default"
    ensures r.ById? ==> r.productId == headers["product_id"]
    ensures r.ByItem? <==> Header(headers, "product_id") == Some("default") && Present(Header(headers, "item"))
    ensures r.ByItem? ==> r.item == headers["item"]
    ensures !Present(Header(headers, "product_id")) ==> r == Unresolved
  {
    var pid := Header(headers, "product_id");
    var item := Header(headers, "item");
    var pid' := if pid == Some("default") then None else pid;
    var item' := if pid == Some("default") then item else None;
    if !Present(pid') && !Present(item') then Unresolved
    else if Present(item') then ByItem(item'.value)
    else ById(pid'.value)
  }

  /** The outcome of `get_product_name(item)`: the record it returned, or the error it raised. */
  datatype NameLookup = Answered(record: Value) | LookupFailed(reason: string)

  /** Either the product id to view, or the way the handler ends before viewing. */
  datatype Target = Resolved(productId: Value) | Finished(reply: Reply)

  /**
   * Python's text for the exception raised by reading `product_id` from the record: a dict without the key
   * raises KeyError, whose text is the quoted key; any other record raises a TypeError whose
   * text depends on the record's type and the Python version, so it is a parameter.
   */
  function SubscriptError(rec: Value, typeError: Value -> string): string {
    if rec.Obj? then "'product_id'" else typeError(rec)
  }

  /**
   * The start both view handlers share: resolve the headers, look the item up when asked
   * to, and reject a missing or falsy product id before any view. Every exception raised
   * while looking the item up or reading its `product_id` is caught and answered with 500.
   */
  function FindTarget(headers: map<string, string>, lookup: string -> NameLookup,
                      typeError: Value -> string): (t: Target)
    ensures ResolveHeaders(headers) == Unresolved ==>
      t == Finished(Returned(Message(400, "Missing product_id or item header")))
    ensures ResolveHeaders(headers).ById? ==> t == Resolved(Str(ResolveHeaders(headers).productId))
    ensures ResolveHeaders(headers).ByItem? ==>
      match lookup(ResolveHeaders(headers).item)
      case LookupFailed(e) => t == Finished(Returned(Message(500, "Error searching item table: " + e)))
      case Answered(rec) =>
        if !Truthy(rec) then t == Finished(Returned(Message(404, "Item not found")))
        else if rec.Obj? && HasKey(rec.fields, "product_id") then
          var pid := Get(rec.fields, "product_id").value;
          if Truthy(pid) then t == Resolved(pid)
          else t == Finished(Returned(Message(400, "Invalid product_id")))
        else t == Finished(Returned(Message(500, "Error searching item table: " + SubscriptError(rec, typeError))))
    ensures t.Resolved? ==> Truthy(t.productId)
    ensures t.Finished? ==> t.reply.Returned? && t.reply.resp.status in {400, 404, 500}
  {
    match ResolveHeaders(headers)
    case Unresolved => Finished(Returned(Message(400, "Missing product_id or item header")))
    case ById(p) => Resolved(Str(p))
    case ByItem(item) =>
      match lookup(item)
      case LookupFailed(e) => Finished(Returned(Message(500, "Error searching item table: " + e)))
      case Answered(rec) =>
        if !Truthy(rec) then Finished(Returned(Message(404, "Item not found")))
        else if !rec.Obj? || Get(rec.fields, "product_id").None? then
          Finished(Returned(Message(500, "Error searching item table: " + SubscriptError(rec, typeError))))
        else
          var pid := Get(rec.fields, "product_id").value;
          if !Truthy(pid) then Finished(Returned(Message(400, "Invalid product_id")))
          else Resolved(pid)
  }

  /** Unless the headers ask for an item lookup, the lookup is never consulted. */
  lemma NoLookupWithoutItem(headers: map<string, string>, l1: string -> NameLookup, l2: string -> NameLookup,
                            typeError: Value -> string)
    requires !ResolveHeaders(headers).ByItem?
    ensures FindTarget(headers, l1, typeError) == FindTarget(headers, l2, typeError)
  {
  }

  /** `view_padeliver_product_by_id_or_name`: the view response of the resolved id, as it is. */
  function ViewByIdOrName(headers: map<string, string>, lookup: string -> NameLookup,
                          typeError: Value -> string, view: Value -> Response): (r: Reply)
    ensures FindTarget(headers, lookup, typeError).Resolved? ==>
      r == Returned(view(FindTarget(headers, lookup, typeError).productId))
    ensures FindTarget(headers, lookup, typeError).Finished? ==> r == FindTarget(headers, lookup, typeError).reply
  {
    match FindTarget(headers, lookup, typeError)
    case Finished(reply) => reply
    case Resolved(pid) => Returned(view(pid))
  }

  /**
   * Looking a product up by item name views the same thing as asking for the id the item
   * record names: the two header forms meet at one view.
   */
  lemma ItemViewsRecordId(byItem: map<string, string>, byId: map<string, string>, lookup: string -> NameLookup,
                          typeError: Value -> string, view: Value -> Response, rec: Fields, p: string)
    requires ResolveHeaders(byItem).ByItem?
    requires lookup(ResolveHeaders(byItem).item) == Answered(Obj(rec))
    requires Get(rec, "product_id") == Some(Str(p))
    requires ResolveHeaders(byId) == ById(p)
    ensures ViewByIdOrName(byItem, lookup, typeError, view) == ViewByIdOrName(byId, lookup, typeError, view)
    ensures ViewByIdOrName(byId, lookup, typeError, view) == Returned(view(Str(p)))
  {
    assert rec != [];
  }

  /** Python's `int(v)` on a parsed JSON value; None stands for the exception it raises. */
  function PyInt(v: Value): (r: Option<int>)
    ensures v.Num? ==> r == Some(v.n)
    ensures v.Bool? ==> r == Some(if v.b then 1 else 0)
    ensures v.Str? ==> r == PyIntOfString(v.s)
    ensures v.Null? || v.Arr? || v.Obj? ==> r.None?
  {
    match v
    case Num(n) => Some(n)
    case Bool(b) => Some(if b then 1 else 0)
    case Str(s) => PyIntOfString(s)
    case _ => None
  }

  /**
   * `get_cart` sends each stored quantity as the decimal text of the number; `int` reads
   * that text as the number itself, so the text and the number give the same quantity.
   */
  lemma QuantityTextReadsAsNumber(q: int)
    ensures PyInt(Str(IntToString(q))) == PyInt(Num(q)) == Some(q)
  {
    PyIntRoundTrip(q);
  }

  /** `for x in v`: a list yields its items, a string its characters, a dict its keys. */
  function Iterate(v: Value): (r: Option<seq<Value>>)
    ensures v.Arr? ==> r == Some(v.items)
    ensures v.Str? ==> r.Some? && |r.value| == |v.s| && forall i :: 0 <= i < |v.s| ==> r.value[i] == Str([v.s[i]])
    ensures v.Obj? ==> r.Some? && |r.value| == |v.fields| && forall i :: 0 <= i < |v.fields| ==> r.value[i] == Str(v.fields[i].0)
    ensures v.Null? || v.Bool? || v.Num? ==> r.None?
  {
    match v
    case Arr(xs) => Some(xs)
    case Str(s) => Some(seq(|s|, i requires 0 <= i < |s| => Str([s[i]])))
    case Obj(f) => Some(seq(|f|, i requires 0 <= i < |f| => Str(f[i].0)))
    case _ => None
  }

  /**
   * The entries the with-user view iterates: the `cart` member of a dict body (none when it
   * is missing), nothing for any other body. None stands for the TypeError of iterating a
   * number, boolean or null.
   */
  function ExtractCart(data: Value): (r: Option<seq<Value>>)
    ensures !data.Obj? ==> r == Some([])
    ensures data.Obj? && !HasKey(data.fields, "cart") ==> r == Some([])
    ensures data.Obj? && HasKey(data.fields, "cart") ==> r == Iterate(Get(data.fields, "cart").value)
    ensures data.Obj? && Get(data.fields, "cart").Some? && Get(data.fields, "cart").value.Arr? ==>
      r == Some(Get(data.fields, "cart").value.items)
    ensures data.Obj? && HasKey(data.fields, "cart") ==>
      (r.None? <==> Get(data.fields, "cart").value.Null? || Get(data.fields, "cart").value.Bool? || Get(data.fields, "cart").value.Num?)
  {
    if data.Obj? then
      match Get(data.fields, "cart")
      case None => Some([])
      case Some(c) => Iterate(c)
    else Some([])
  }

  /** Entry `j` of the cart is a dict naming the viewed product. */
  predicate EntryMatches(cart: seq<Value>, pid: Value, j: int) {
    0 <= j < |cart| && cart[j].Obj? && Get(cart[j].fields, "product_id") == Some(pid)
  }

  /** Entry `j` of the cart is a dict naming some other product (or none). */
  predicate EntrySkipped(cart: seq<Value>, pid: Value, j: int) {
    0 <= j < |cart| && cart[j].Obj? && Get(cart[j].fields, "product_id") != Some(pid)
  }

  /** `int(entry["quantity"])`; None stands for the KeyError or the failed conversion. */
  function EntryQuantity(entry: Value): Option<int>
    requires entry.Obj?
  {
    match Get(entry.fields, "quantity")
    case None => None
    case Some(q) => PyInt(q)
  }

  /**
   * The loop over the cart: the `int` quantity of the first entry whose `product_id` equals
   * the viewed id, 0 when none does. None stands for the exception raised by an entry that
   * is not a dict, or a matching entry whose quantity is missing or not convertible.
   */
  function InUserCart(cart: seq<Value>, pid: Value): (r: Option<int>)
    ensures (forall j :: 0 <= j < |cart| ==> EntrySkipped(cart, pid, j)) ==> r == Some(0)
    ensures forall k :: EntryMatches(cart, pid, k) && (forall j :: 0 <= j < k ==> EntrySkipped(cart, pid, j)) ==>
      r == EntryQuantity(cart[k])
    ensures forall k :: 0 <= k < |cart| && !cart[k].Obj? && (forall j :: 0 <= j < k ==> EntrySkipped(cart, pid, j)) ==>
      r.None?
  {
    ScanFacts(cart, pid);
    Scan(cart, pid)
  }

  /** The loop itself, entry by entry. */
  function Scan(cart: seq<Value>, pid: Value): Option<int> {
    if |cart| == 0 then Some(0)
    else if !cart[0].Obj? then None
    else if Get(cart[0].fields, "product_id") == Some(pid) then EntryQuantity(cart[0])
    else Scan(cart[1..], pid)
  }

  lemma {:induction false} ScanFacts(cart: seq<Value>, pid: Value)
    ensures (forall j :: 0 <= j < |cart| ==> EntrySkipped(cart, pid, j)) ==> Scan(cart, pid) == Some(0)
    ensures forall k :: EntryMatches(cart, pid, k) && (forall j :: 0 <= j < k ==> EntrySkipped(cart, pid, j)) ==>
      Scan(cart, pid) == EntryQuantity(cart[k])
    ensures forall k :: 0 <= k < |cart| && !cart[k].Obj? && (forall j :: 0 <= j < k ==> EntrySkipped(cart, pid, j)) ==>
      Scan(cart, pid).None?
  {
    if |cart| == 0 {
    } else if !cart[0].Obj? {
      assert !EntrySkipped(cart, pid, 0);
    } else if Get(cart[0].fields, "product_id") == Some(pid) {
      assert !EntrySkipped(cart, pid, 0);
    } else {
      EntriesShift(cart, pid);
      ScanFacts(cart[1..], pid);
    }
  }

  /** Entry `j + 1` of the cart is entry `j` of its tail. */
  lemma EntriesShift(cart: seq<Value>, pid: Value)
    requires |cart| > 0
    ensures forall j :: 0 <= j < |cart| - 1 ==> (EntrySkipped(cart[1..], pid, j) <==> EntrySkipped(cart, pid, j + 1))
    ensures forall j :: 0 < j < |cart| ==> (EntryMatches(cart, pid, j) <==> EntryMatches(cart[1..], pid, j - 1))
  {
  }

  /**
   * `view_padeliver_product_by_id_or_name_with_user` once the target is known: the view
   * body gets an `in_user_cart` member computed from the body `get_cart` produced. The
   * status is the view's, whatever it is.
   */
  function AnnotateView(view: Response, pid: Value, cartBody: Value): (r: Reply)
    ensures r.Returned? ==> r.resp.status == view.status
    ensures r.Returned? <==>
      view.body.Doc? && view.body.doc.Obj?
      && ExtractCart(cartBody).Some? && InUserCart(ExtractCart(cartBody).value, pid).Some?
    ensures r.Returned? ==>
      (&& r.resp.body.Doc? && r.resp.body.doc.Obj?
       && Get(r.resp.body.doc.fields, "in_user_cart") == Some(Num(InUserCart(ExtractCart(cartBody).value, pid).value))
       && forall k :: k != "in_user_cart" ==> Get(r.resp.body.doc.fields, k) == Get(view.body.doc.fields, k))
  {
    if !view.body.Doc? || !view.body.doc.Obj? then Raised
    else match ExtractCart(cartBody)
      case None => Raised
      case Some(cart) =>
        match InUserCart(cart, pid)
        case None => Raised
        case Some(q) =>
          Returned(Response(view.status, Doc(Obj(SetField(view.body.doc.fields, "in_user_cart", Num(q))))))
  }

  /** The whole with-user handler; the cart body is `get_cart`'s for the path's user. */
  function ViewWithUser(headers: map<string, string>, lookup: string -> NameLookup, typeError: Value -> string,
                        view: Value -> Response, carts: Cart.CartTable, userId: string): (r: Reply)
    ensures FindTarget(headers, lookup, typeError).Finished? ==> r == FindTarget(headers, lookup, typeError).reply
    ensures FindTarget(headers, lookup, typeError).Resolved? ==>
      var pid := FindTarget(headers, lookup, typeError).productId;
      r == AnnotateView(view(pid), pid, Cart.GetCart(carts, userId).body.doc)
  {
    match FindTarget(headers, lookup, typeError)
    case Finished(reply) => reply
    case Resolved(pid) => AnnotateView(view(pid), pid, Cart.GetCart(carts, userId).body.doc)
  }

  /**
   * As written, `get_cart` answers with a bare list, so the `isinstance(..., dict)` test
   * fails, the extracted cart is empty and `in_user_cart` is 0 whatever the user's cart holds.
   */
  lemma InUserCartAlwaysZero(headers: map<string, string>, lookup: string -> NameLookup, typeError: Value -> string,
                             view: Value -> Response, carts: Cart.CartTable, userId: string)
    requires FindTarget(headers, lookup, typeError).Resolved?
    requires view(FindTarget(headers, lookup, typeError).productId).body.Doc?
    requires view(FindTarget(headers, lookup, typeError).productId).body.doc.Obj?
    ensures var r := ViewWithUser(headers, lookup, typeError, view, carts, userId);
      r.Returned? && Get(r.resp.body.doc.fields, "in_user_cart") == Some(Num(0))
  {
  }

  /** A concrete instance: the user holds 2 of P1, yet viewing P1 reports 0 in the cart. */
  lemma InUserCartIgnoresStoredLine()
    ensures var carts := map["u1" := Cart.CartItem(Some([Cart.Line("P1", 2, [])]))];
      var view := (pid: Value) => Response(200, Doc(Obj([("product_id", pid)])));
      var r := ViewWithUser(map["product_id" := "P1"], _ => LookupFailed(""), _ => "", view, carts, "u1");
      Cart.QtyOf(Cart.StoredCart(carts, "u1"), "P1") == 2
      && r.Returned? && Get(r.resp.body.doc.fields, "in_user_cart") == Some(Num(0))
  {
    var carts := map["u1" := Cart.CartItem(Some([Cart.Line("P1", 2, [])]))];
    assert Cart.QtyOf([Cart.Line("P1", 2, [])][1..], "P1") == 0;
  }

  /** The quantity of the first line for `pid`, 0 when there is none. */
  function FirstQuantity(cart: seq<Cart.Line>, pid: string): int {
    match Cart.FirstMatch(cart, pid)
    case None => 0
    case Some(k) => cart[k].quantity
  }

  lemma {:induction false} InUserCartOfLines(cart: seq<Cart.Line>, pid: string)
    ensures InUserCart(Cart.CartJson(cart).items, Str(pid)) == Some(FirstQuantity(cart, pid))
  {
    var items := Cart.CartJson(cart).items;
    if |cart| > 0 {
      var f := items[0].fields;
      assert items[0] == Cart.LineJson(cart[0]);
      assert Get(f, "product_id") == Some(Str(cart[0].productId));
      assert f[1..][0] == ("quantity", Num(cart[0].quantity));
      assert Get(f, "quantity") == Some(Num(cart[0].quantity));
      if cart[0].productId != pid {
        assert items[1..] == Cart.CartJson(cart[1..]).items;
        InUserCartOfLines(cart[1..], pid);
        assert FirstQuantity(cart, pid) == FirstQuantity(cart[1..], pid);
      }
    }
  }

  /**
   * With the `{"cart": [...]}` body both readers expect, `in_user_cart` is the quantity
   * of the user's first line for the viewed product, and 0 when there is none.
   */
  lemma InUserCartWithWrappedBody(carts: Cart.CartTable, userId: string, pid: string, view: Response)
    requires view.body.Doc? && view.body.doc.Obj?
    ensures var r := AnnotateView(view, Str(pid), Cart.GetCartWrapped(carts, userId).body.doc);
      r.Returned?
      && Get(r.resp.body.doc.fields, "in_user_cart")
         == Some(Num(FirstQuantity(Cart.StoredCart(carts, userId), pid)))
  {
    var cart := Cart.StoredCart(carts, userId);
    var body := Cart.GetCartWrapped(carts, userId).body.doc;
    assert ExtractCart(body) == Some(Cart.CartJson(cart).items);
    InUserCartOfLines(cart, pid);
  }

  /** An inventory movement as `add_padeliver_inventory` writes it. */
  datatype InventoryRecord = InventoryRecord(productId: Value, quantity: int, remark: Value, datetime: string)

  /** The body names a truthy `product_id` and a `quantity` that is not null. */
  predicate InventoryInput(body: Fields) {
    && Get(body, "product_id").Some? && Truthy(Get(body, "product_id").value)
    && Get(body, "quantity").Some? && !Get(body, "quantity").value.Null?
  }

  /** The response and the inventory ledger after the call. */
  datatype InventoryResult = InventoryResult(reply: Reply, ledger: seq<InventoryRecord>)

  /**
   * `add_padeliver_inventory`: validate the body, check the product exists, then append
   * one record. `now` is the formatted local time; `writeError` the error the write raised.
   */
  function AddInventory(body: Fields, productExists: Value -> bool, now: string,
                        ledger: seq<InventoryRecord>, writeError: Option<string>): (r: InventoryResult)
    ensures !InventoryInput(body) <==> r.reply == Returned(Message(400, "Invalid input: Missing product_id or quantity"))
    ensures r.reply == Returned(Message(404, "Product not found")) <==>
      InventoryInput(body) && !productExists(Get(body, "product_id").value)
    ensures r.reply.Raised? <==>
      InventoryInput(body) && productExists(Get(body, "product_id").value) && PyInt(Get(body, "quantity").value).None?
    ensures InventoryInput(body) && productExists(Get(body, "product_id").value)
            && PyInt(Get(body, "quantity").value).Some? && writeError.Some? ==>
      r.reply == Returned(Message(500, "Error adding inventory: " + writeError.value))
    ensures r.reply == Returned(Message(200, "Inventory added successfully")) <==>
      && InventoryInput(body) && productExists(Get(body, "product_id").value)
      && PyInt(Get(body, "quantity").value).Some? && writeError.None?
    ensures r.reply == Returned(Message(200, "Inventory added successfully")) ==>
      r.ledger == ledger + [InventoryRecord(
           Get(body, "product_id").value,
           PyInt(Get(body, "quantity").value).value,
           Get(body, "remark").GetOr(Str("Default remark.")),
           now)]
    ensures r.reply != Returned(Message(200, "Inventory added successfully")) ==> r.ledger == ledger
  {
    var pid := Get(body, "product_id");
    var qty := Get(body, "quantity");
    var remark := Get(body, "remark").GetOr(Str("Default remark."));
    if !InventoryInput(body) then
      InventoryResult(Returned(Message(400, "Invalid input: Missing product_id or quantity")), ledger)
    else if !productExists(pid.value) then
      InventoryResult(Returned(Message(404, "Product not found")), ledger)
    else match PyInt(qty.value)
      case None => InventoryResult(Raised, ledger)
      case Some(q) =>
        if writeError.Some? then
          InventoryResult(Returned(Message(500, "Error adding inventory: " + writeError.value)), ledger)
        else
          InventoryResult(Returned(Message(200, "Inventory added successfully")),
                          ledger + [InventoryRecord(pid.value, q, remark, now)])
  }

  /**
   * A quantity sent as text is converted: the record holds `int` of the text, and the
   * remark defaults when the body has none.
   */
  lemma AddInventoryParsesTextQuantity(body: Fields, ledger: seq<InventoryRecord>, now: string, pid: string, q: int)
    requires pid != ""
    requires Get(body, "product_id") == Some(Str(pid))
    requires Get(body, "quantity") == Some(Str(IntToString(q)))
    requires Get(body, "remark") == None
    ensures AddInventory(body, _ => true, now, ledger, None).ledger
      == ledger + [InventoryRecord(Str(pid), q, Str("Default remark."), now)]
  {
    PyIntRoundTrip(q);
    assert PyInt(Str(IntToString(q))) == Some(q);
    assert Truthy(Str(pid));
  }

  /** What one uploaded CSV file leads to. */
  datatype CsvAction = CreateFrom(key: string, lines: seq<string>) | DeleteFrom(key: string, lines: seq<string>)

  const CreatePrefix: string := "for_padeliver_create/"
  const DeletePrefix: string := "for_padeliver_delete/"

  /** The action for one record: by key prefix, and only when the fetched content is non-empty. */
  function ActionFor(key: string, content: Option<seq<string>>): (a: Option<CsvAction>)
    ensures a.Some? <==>
      (&& content.Some? && content.value != []
       && (StartsWith(key, CreatePrefix) || StartsWith(key, DeletePrefix)))
    ensures a.Some? && a.value.CreateFrom? ==> StartsWith(key, CreatePrefix)
    ensures a.Some? && a.value.DeleteFrom? ==> StartsWith(key, DeletePrefix)
    ensures a.Some? ==> a.value.key == key && a.value.lines == content.value
  {
    if content.Some? && content.value != [] then
      if StartsWith(key, CreatePrefix) then Some(CreateFrom(key, content.value))
      else if StartsWith(key, DeletePrefix) then Some(DeleteFrom(key, content.value))
      else None
    else None
  }

  /**
   * `process_padeliver_csv`: one action per record whose key carries a known prefix and
   * whose content is non-empty, in record order; the response is always 200.
   */
  function ProcessCsv(keys: seq<string>, fetch: string -> Option<seq<string>>): (r: (Response, seq<CsvAction>))
    ensures r.0 == Message(200, "CSV processed successfully")
    ensures |r.1| <= |keys|
    ensures forall i :: 0 <= i < |r.1| ==> r.1[i].key in keys
    ensures forall i :: 0 <= i < |r.1| ==> ActionFor(r.1[i].key, fetch(r.1[i].key)) == Some(r.1[i])
  {
    if |keys| == 0 then (Message(200, "CSV processed successfully"), [])
    else
      var rest := ProcessCsv(keys[1..], fetch).1;
      var actions := match ActionFor(keys[0], fetch(keys[0]))
        case None => rest
        case Some(a) => [a] + rest;
      assert forall i :: 0 <= i < |rest| ==> rest[i].key in keys;
      assert forall i :: 0 <= i < |rest| ==> ActionFor(rest[i].key, fetch(rest[i].key)) == Some(rest[i]);
      (Message(200, "CSV processed successfully"), actions)
  }

  /** A single record leads to exactly the action `ActionFor` chooses for it, if any. */
  lemma ProcessCsvOne(key: string, fetch: string -> Option<seq<string>>)
    ensures ProcessCsv([key], fetch).1
      == if ActionFor(key, fetch(key)).Some? then [ActionFor(key, fetch(key)).value] else []
  {
    assert [key][1..] == [];
  }

  /** Processing two batches of records one after the other is processing them together. */
  lemma {:induction false} ProcessCsvAppend(k1: seq<string>, k2: seq<string>, fetch: string -> Option<seq<string>>)
    ensures ProcessCsv(k1 + k2, fetch).1 == ProcessCsv(k1, fetch).1 + ProcessCsv(k2, fetch).1
  {
    if |k1| > 0 {
      assert (k1 + k2)[1..] == k1[1..] + k2;
      ProcessCsvAppend(k1[1..], k2, fetch);
    } else {
      assert k1 + k2 == k2;
    }
  }

  /** A record outside both folders, or with empty content, does nothing. */
  lemma IgnoredRecord(key: string, fetch: string -> Option<seq<string>>)
    requires (!StartsWith(key, CreatePrefix) && !StartsWith(key, DeletePrefix))
             || fetch(key).None? || fetch(key) == Some([])
    ensures ProcessCsv([key], fetch).1 == []
  {
  }
}

=== FILE: product_file.dfy ===
/**
 * models/flaskProductModel.py: the product list read from a comma-separated text file
 * whose first line is a header. Each later line must split into exactly six fields;
 * the first line that does not ends the reading (the ValueError is caught) and the
 * products read so far are returned.
 */
module ProductFile {
  import opened Options
  import opened Strings
  import Seqs
  import Catalog

  /** One line of the product file: the stripped line cut at commas into the six product fields, None when there are not six. */
  function ParseLine(line: string): (p: Option<Catalog.Product>)
    ensures p.None? <==> |Split(Strip(line), ',')| != 6
  {
    var f := Split(Strip(line), ',');
    if |f| != 6 then None
    else Some(Catalog.Product(f[0], f[1], f[2], f[3], f[4], f[5]))
  }

  /** A parsed product is the stripped line cut at its commas: writing it again gives that line. */
  lemma ParsedProductRenders(line: string)
    requires ParseLine(line).Some?
    ensures Render(ParseLine(line).value) == Strip(line)
    ensures NoCommas(ParseLine(line).value)
  {
    FieldsOfSplit(Strip(line), ParseLine(line).value);
  }

  lemma FieldsOfSplit(s: string, p: Catalog.Product)
    requires var f := Split(s, ','); |f| == 6 && p == Catalog.Product(f[0], f[1], f[2], f[3], f[4], f[5])
    ensures Render(p) == s && NoCommas(p)
  {
    var f := Split(s, ',');
    assert Fields(p) == f;
    JoinSplit(s, ',');
  }

  function Fields(p: Catalog.Product): seq<string> {
    [p.productId, p.category, p.brand, p.item, p.description, p.price]
  }

  /** The line a product is written as, without its line end. */
  function Render(p: Catalog.Product): string {
    Join(Fields(p), ",")
  }

  predicate NoCommas(p: Catalog.Product) {
    forall i :: 0 <= i < |Fields(p)| ==> ',' !in Fields(p)[i]
  }

  /** The lines after the header, read until the first one that is not six fields. */
  function ParseAll(lines: seq<string>): (ps: seq<Catalog.Product>)
    ensures |ps| <= |lines|
    ensures forall i :: 0 <= i < |ps| ==> ParseLine(lines[i]) == Some(ps[i])
    ensures |ps| < |lines| ==> ParseLine(lines[|ps|]).None?
  {
    TakeSome(Seqs.Map(lines, ParseLine))
  }

  /**
   * `read_products_from_file`: None stands for a file that cannot be opened, which
   * yields no products. Product i comes from line i + 1, and reading stops right
   * before the first malformed line.
   */
  function ReadProducts(file: Option<seq<string>>): (ps: seq<Catalog.Product>)
    ensures file.None? ==> ps == []
    ensures file.Some? && |file.value| <= 1 ==> ps == []
    ensures file.Some? && |file.value| >= 1 ==>
      && |ps| <= |file.value| - 1
      && (forall i :: 0 <= i < |ps| ==> ParseLine(file.value[i + 1]) == Some(ps[i]))
      && (|ps| + 1 < |file.value| ==> ParseLine(file.value[|ps| + 1]).None?)
  {
    match file
    case None => []
    case Some(lines) =>
      if |lines| == 0 then []
      else
        var ps := ParseAll(lines[1..]);
        assert forall i :: 0 <= i < |lines| - 1 ==> lines[1..][i] == lines[i + 1];
        ps
  }

  /** A product whose fields hold no comma and whose line does not start or end in white space. */
  predicate Writable(p: Catalog.Product) {
    && NoCommas(p)
    && p.productId != "" && !IsPySpace(p.productId[0])
    && p.price != "" && !IsPySpace(p.price[|p.price| - 1])
  }

  function Row(p: Catalog.Product): string {
    Render(p) + "\n"
  }

  lemma RenderEnds(p: Catalog.Product)
    requires p.productId != "" && p.price != ""
    ensures |Render(p)| > 0
    ensures Render(p)[0] == p.productId[0]
    ensures Render(p)[|Render(p)| - 1] == p.price[|p.price| - 1]
  {
    var f := Fields(p);
    assert Join(f[5..], ",") == p.price;
    assert Join(f[4..], ",") == p.description + "," + p.price;
    assert Join(f[3..], ",") == p.item + "," + Join(f[4..], ",");
    assert Join(f[2..], ",") == p.brand + "," + Join(f[3..], ",");
    assert Join(f[1..], ",") == p.category + "," + Join(f[2..], ",");
    assert Render(p) == p.productId + "," + Join(f[1..], ",");
  }

  /** A written product line reads back as the same product. */
  lemma ParseRow(p: Catalog.Product)
    requires Writable(p)
    ensures ParseLine(Row(p)) == Some(p)
  {
    RenderEnds(p);
    StripPadded(Render(p), "\n");
    SplitJoin(Fields(p), ',');
  }

  /** Writing a header and one line per product, then reading the file, gives the products back. */
  lemma {:induction false} ReadWrittenFile(header: string, products: seq<Catalog.Product>)
    requires forall i :: 0 <= i < |products| ==> Writable(products[i])
    ensures ReadProducts(Some([header] + Seqs.Map(products, Row))) == products
  {
    var lines := [header] + Seqs.Map(products, Row);
    assert lines[1..] == Seqs.Map(products, Row);
    ParseAllRows(products);
  }

  lemma ParseAllRows(products: seq<Catalog.Product>)
    requires forall i :: 0 <= i < |products| ==> Writable(products[i])
    ensures ParseAll(Seqs.Map(products, Row)) == products
  {
    var rows := Seqs.Map(products, Row);
    var parsed := Seqs.Map(rows, ParseLine);
    forall i | 0 <= i < |parsed| ensures parsed[i] == Some(products[i]) {
      ParseRow(products[i]);
    }
    TakeSomeAll(parsed, products);
  }

  /** A malformed last line, such as a blank one, loses nothing that was read before it. */
  lemma MalformedLastLineHarmless(lines: seq<string>, bad: string)
    requires ParseLine(bad).None?
    ensures ParseAll(lines + [bad]) == ParseAll(lines)
  {
    Seqs.MapSnoc(lines, bad, ParseLine);
    TakeSomeBeforeNone(Seqs.Map(lines, ParseLine));
  }

  /** A blank line is malformed: it strips to "", which splits into one field. */
  lemma BlankLineMalformed()
    ensures ParseLine("\n").None?
  {
    assert Strip("\n") == "";
    assert Split("", ',') == [""];
  }
}

=== FILE: product_handler.dfy ===
/**
 * `product_modification` of handlers/productHandler.py: choose view, edit or delete
 * from the HTTP method, where an `http_method` query parameter overrides the method
 * of the request context.
 */
module ProductHandler {
  import opened Options
  import opened Json
  import opened Http
  import opened Strings
  import ProductModel

  /** The query parameters: a missing or null parameter map reads as empty, a present one as it is. */
  function Params(query: Option<map<string, string>>): (p: map<string, string>)
    ensures query.None? ==> p == map[]
    ensures query.Some? ==> p == query.value
  {
    query.GetOr(map[])
  }

  /**
   * A non-empty `http_method` parameter, upper-cased, wins; otherwise the request
   * context's method exactly as given, or "UNKNOWN" when there is none.
   */
  function EffectiveMethod(query: Option<map<string, string>>, contextMethod: Option<string>): (m: string)
    ensures var p := Params(query);
      "http_method" in p && p["http_method"] != "" ==> m == ToUpper(p["http_method"])
    ensures var p := Params(query);
      !("http_method" in p && p["http_method"] != "") ==> m == contextMethod.GetOr("UNKNOWN")
  {
    var p := Params(query);
    var fromQuery := ToUpper(if "http_method" in p then p["http_method"] else "");
    if fromQuery != "" then fromQuery else contextMethod.GetOr("UNKNOWN")
  }

  datatype Route = ViewRoute | EditRoute | DeleteRoute | InvalidRoute

  function RouteOf(verb: string): (r: Route)
    ensures r == ViewRoute <==> verb == "GET"
    ensures r == EditRoute <==> verb == "PUT"
    ensures r == DeleteRoute <==> verb == "DELETE"
  {
    if verb == "GET" then ViewRoute
    else if verb == "PUT" then EditRoute
    else if verb == "DELETE" then DeleteRoute
    else InvalidRoute
  }

  /**
   * The whole handler: GET views and DELETE deletes the query's `product_id`, PUT edits
   * with the parsed body, and any other method is refused with nothing written.
   */
  function ProductModification(query: Option<map<string, string>>, contextMethod: Option<string>,
                               body: Fields, table: map<string, Value>): (o: ProductModel.Outcome)
    ensures var route := RouteOf(EffectiveMethod(query, contextMethod));
      var id := if "product_id" in Params(query) then Some(Params(query)["product_id"]) else None;
      && (route == ViewRoute ==> o == ProductModel.Outcome(ProductModel.ViewProduct(id, table), []))
      && (route == EditRoute ==> o == ProductModel.EditProduct(body))
      && (route == DeleteRoute ==> o == ProductModel.DeleteProduct(id))
      && (route == InvalidRoute <==> o == ProductModel.Outcome(Message(400, "Invalid action or HTTP method"), []))
  {
    var p := Params(query);
    var id := if "product_id" in p then Some(p["product_id"]) else None;
    match RouteOf(EffectiveMethod(query, contextMethod))
    case ViewRoute => ProductModel.Outcome(ProductModel.ViewProduct(id, table), [])
    case EditRoute => ProductModel.EditProduct(body)
    case DeleteRoute => ProductModel.DeleteProduct(id)
    case InvalidRoute => ProductModel.Outcome(Message(400, "Invalid action or HTTP method"), [])
  }

  /** The override parameter is case-insensitive... */
  lemma OverrideIsUpperCased(contextMethod: Option<string>)
    ensures RouteOf(EffectiveMethod(Some(map["http_method" := "delete"]), contextMethod)) == DeleteRoute
  {
    var q := map["http_method" := "delete"];
    assert Params(Some(q)) == q;
    UpperDelete();
  }

  lemma UpperDelete()
    ensures ToUpper("delete") == "DELETE"
  {
    var s := "delete";
    assert UpperChar(s[0]) == 'D' && UpperChar(s[1]) == 'E' && UpperChar(s[2]) == 'L';
    assert UpperChar(s[3]) == 'E' && UpperChar(s[4]) == 'T' && UpperChar(s[5]) == 'E';
  }

  /** ... but the request context's method is not: a lower-case "get" there is refused. */
  lemma LowerCaseContextMethodRefused(query: Option<map<string, string>>, body: Fields, table: map<string, Value>)
    requires "http_method" !in Params(query)
    ensures ProductModification(query, Some("get"), body, table)
      == ProductModel.Outcome(Message(400, "Invalid action or HTTP method"), [])
  {
  }
}

=== FILE: product_model.dfy ===
/**
 * The catalog operations of models/productModel.py. The product table is a map from
 * product id to item; writes and the queue message are recorded as effects in call
 * order, so "nothing was written" is an empty effect list.
 */
module ProductModel {
  import opened Options
  import opened Json
  import opened Http
  import opened Strings
  import opened Numerals
  import opened S3Gateway
  import Seqs

  /** A call the model makes on the product table or the queue. */
  datatype Effect =
    | Save(item: Fields)
    | SendMessage(queue: string, payload: Fields)
    | Update(productId: Value, expression: string, values: map<string, Value>)
    | Delete(deletedId: string)
    | BatchPut(items: seq<map<string, string>>)
    | BatchRemove(productIds: seq<string>)

  datatype Outcome = Outcome(response: Response, effects: seq<Effect>)

  const ProductsQueue: string := "products-queue-rey-sqs"

  /**
   * `create_product`: a body without `product_id` is refused with nothing written;
   * otherwise the product is saved and then announced on the queue. A failed send
   * answers 500 but the save stays.
   */
  function CreateProduct(body: Fields, queueError: Option<string>): (o: Outcome)
    ensures !HasKey(body, "product_id") <==> o == Outcome(Message(400, "Invalid input: Missing product_id"), [])
    ensures o.response.status != 400 ==> o.effects == [Save(body), SendMessage(ProductsQueue, body)]
    ensures o.response.status == 500 <==> HasKey(body, "product_id") && queueError.Some?
    ensures o.response.status == 200 <==> HasKey(body, "product_id") && queueError.None?
    ensures o.response.status == 500 ==> o.response == Message(500, "Error sending message to SQS")
    ensures o.response.status == 200 ==>
      o.response == Response(200, Doc(Obj([("message", Str("Product created successfully")), ("product", Obj(body))])))
  {
    if body == [] || !HasKey(body, "product_id") then
      Outcome(Message(400, "Invalid input: Missing product_id"), [])
    else
      var effects := [Save(body), SendMessage(ProductsQueue, body)];
      if queueError.Some? then Outcome(Message(500, "Error sending message to SQS"), effects)
      else Outcome(Response(200, Doc(Obj([("message", Str("Product created successfully")), ("product", Obj(body))]))), effects)
  }

  /** A query-string id is falsy when absent or empty. */
  predicate GivenId(productId: Option<string>) {
    productId.Some? && productId.value != ""
  }

  /** `view_product`: 400 without an id, 404 when the table has no (or an empty) item, else the item. */
  function ViewProduct(productId: Option<string>, table: map<string, Value>): (r: Response)
    ensures r == Message(400, "Missing product_id") <==> !GivenId(productId)
    ensures r == Message(404, "Product not found") <==>
      GivenId(productId) && (productId.value !in table || !Truthy(table[productId.value]))
    ensures r.status == 200 <==>
      GivenId(productId) && productId.value in table && Truthy(table[productId.value])
    ensures r.status == 200 ==> r.body == Doc(table[productId.value])
  {
    if !GivenId(productId) then Message(400, "Missing product_id")
    else if productId.value !in table || !Truthy(table[productId.value]) then Message(404, "Product not found")
    else Response(200, Doc(table[productId.value]))
  }

  /** One `attribute = :attribute` clause of an update expression. */
  datatype Assignment = Assignment(attribute: string, placeholder: string)

  function KeyOf(member: (string, Value)): string { member.0 }

  function AttributeOf(a: Assignment): string { a.attribute }

  function PlaceholderOf(a: Assignment): string { a.placeholder }

  predicate OtherThanId(member: (string, Value)) { member.0 != "product_id" }

  /**
   * The clauses `edit_product` builds: one per body member other than `product_id`, in body order.
   * AssignmentsAreOtherMembers states the completeness and the order.
   */
  function Assignments(data: Fields): (a: seq<Assignment>)
    ensures |a| <= |data|
    ensures forall i :: 0 <= i < |a| ==>
      a[i].placeholder == ":" + a[i].attribute && a[i].attribute != "product_id" && HasKey(data, a[i].attribute)
  {
    if |data| == 0 then []
    else
      var rest := Assignments(data[1..]);
      assert forall i :: 0 <= i < |rest| ==> HasKey(data, rest[i].attribute) by {
        forall i | 0 <= i < |rest| ensures HasKey(data, rest[i].attribute) {
          var j :| 0 <= j < |data[1..]| && data[1..][j].0 == rest[i].attribute;
          assert data[j + 1].0 == rest[i].attribute;
        }
      }
      if data[0].0 == "product_id" then rest
      else [Assignment(data[0].0, ":" + data[0].0)] + rest
  }

  /** The text of one clause: the attribute, " = ", then its placeholder. */
  function Clause(a: Assignment): string {
    a.attribute + " = " + a.placeholder
  }

  /**
   * The update expression: "SET " and then the clauses, separated by ", ".
   * UpdateExpressionOfOne and UpdateExpressionSnoc pin it clause by clause.
   */
  function UpdateExpression(a: seq<Assignment>): (e: string)
    ensures StartsWith(e, "SET ")
    ensures a == [] ==> e == "SET "
  {
    "SET " + Join(Seqs.Map(a, Clause), ", ")
  }

  /** A single clause follows "SET " directly. */
  lemma UpdateExpressionOfOne(x: Assignment)
    ensures UpdateExpression([x]) == "SET " + Clause(x)
  {
    assert Seqs.Map([x], Clause) == [Clause(x)];
  }

  /** Each further clause is appended after ", ": the expression lists the clauses in order. */
  lemma UpdateExpressionSnoc(a: seq<Assignment>, x: Assignment)
    requires a != []
    ensures UpdateExpression(a + [x]) == UpdateExpression(a) + ", " + Clause(x)
  {
    Seqs.MapSnoc(a, x, Clause);
    JoinSnoc(Seqs.Map(a, Clause), Clause(x), ", ");
  }

  /**
   * The value map of the update: each body member other than `product_id` binds its
   * placeholder to its value; a later member would win over an earlier one with the same key.
   */
  function Placeholders(data: Fields): (m: map<string, Value>)
    ensures forall i :: 0 <= i < |data| && data[i].0 != "product_id" ==> ":" + data[i].0 in m
    ensures forall p :: p in m ==>
      exists i :: 0 <= i < |data| && data[i].0 != "product_id" && p == ":" + data[i].0 && m[p] == data[i].1
  {
    CollectedFromBody(data);
    Collected(data)
  }

  /** The value map built member by member from the back, so that a later member wins. */
  function Collected(data: Fields): map<string, Value> {
    if |data| == 0 then map[]
    else
      var m := Collected(data[1..]);
      if data[0].0 == "product_id" || ":" + data[0].0 in m then m
      else m[":" + data[0].0 := data[0].1]
  }

  lemma {:induction false} CollectedFromBody(data: Fields)
    ensures forall i :: 0 <= i < |data| && data[i].0 != "product_id" ==> ":" + data[i].0 in Collected(data)
    ensures forall p :: p in Collected(data) ==>
      exists i :: 0 <= i < |data| && data[i].0 != "product_id" && p == ":" + data[i].0 && Collected(data)[p] == data[i].1
  {
    if |data| > 0 {
      CollectedFromBody(data[1..]);
      var m := Collected(data[1..]);
      forall i | 1 <= i < |data| && data[i].0 != "product_id" ensures ":" + data[i].0 in Collected(data) {
        assert data[1..][i - 1] == data[i];
      }
      forall p | p in Collected(data)
        ensures exists i :: 0 <= i < |data| && data[i].0 != "product_id" && p == ":" + data[i].0 && Collected(data)[p] == data[i].1
      {
        if p in m && Collected(data)[p] == m[p] {
          var i :| 0 <= i < |data[1..]| && data[1..][i].0 != "product_id" && p == ":" + data[1..][i].0 && m[p] == data[1..][i].1;
          assert data[i + 1] == data[1..][i];
        } else {
          assert data[0].0 != "product_id" && p == ":" + data[0].0 && Collected(data)[p] == data[0].1;
        }
      }
    }
  }

  lemma DictTail(data: Fields)
    requires IsDict(data) && |data| > 0
    ensures IsDict(data[1..])
    ensures !HasKey(data[1..], data[0].0)
  {
    forall a, b | 0 <= a < b < |data[1..]| ensures data[1..][a].0 != data[1..][b].0 {
      assert data[1..][a] == data[a + 1] && data[1..][b] == data[b + 1];
    }
    forall j | 0 <= j < |data[1..]| ensures data[1..][j].0 != data[0].0 {
      assert data[1..][j] == data[j + 1];
    }
  }

  /** The set of placeholders the expression uses. */
  function PlaceholderSet(a: seq<Assignment>): set<string> {
    set i | 0 <= i < |a| :: a[i].placeholder
  }

  /** The value map has exactly one key for each placeholder the expression uses. */
  lemma PlaceholderKeysMatch(data: Fields)
    ensures Placeholders(data).Keys == PlaceholderSet(Assignments(data))
  {
    CollectedKeysMatch(data);
  }

  lemma {:induction false} CollectedKeysMatch(data: Fields)
    ensures Collected(data).Keys == PlaceholderSet(Assignments(data))
  {
    if |data| > 0 {
      CollectedKeysMatch(data[1..]);
      var k := data[0].0;
      if k != "product_id" {
        assert Assignments(data) == [Assignment(k, ":" + k)] + Assignments(data[1..]);
        PlaceholderSetCons(Assignment(k, ":" + k), Assignments(data[1..]));
      }
    }
  }

  lemma PlaceholderSetCons(x: Assignment, rest: seq<Assignment>)
    ensures PlaceholderSet([x] + rest) == {x.placeholder} + PlaceholderSet(rest)
  {
    var a := [x] + rest;
    forall p | p in PlaceholderSet(a) ensures p in {x.placeholder} + PlaceholderSet(rest) {
      var i :| 0 <= i < |a| && a[i].placeholder == p;
      if i > 0 { assert a[i] == rest[i - 1]; }
    }
    forall p | p in PlaceholderSet(rest) ensures p in PlaceholderSet(a) {
      var i :| 0 <= i < |rest| && rest[i].placeholder == p;
      assert a[i + 1] == rest[i];
    }
    assert a[0] == x;
  }

  /** In a dict body no two clauses share a placeholder. */
  lemma {:induction false} PlaceholdersDistinct(data: Fields)
    requires IsDict(data)
    ensures Seqs.Distinct(Seqs.Map(Assignments(data), PlaceholderOf))
  {
    if |data| > 0 {
      DictTail(data);
      PlaceholdersDistinct(data[1..]);
      var k := data[0].0;
      var ra := Assignments(data[1..]);
      if k != "product_id" {
        var a := Assignments(data);
        assert a == [Assignment(k, ":" + k)] + ra;
        var rs := Seqs.Map(ra, PlaceholderOf);
        forall i | 0 <= i < |rs| ensures rs[i] != ":" + k {
          assert HasKey(data[1..], ra[i].attribute);
          PlaceholderDiffers(ra[i].attribute, k);
        }
        assert Seqs.Map(a, PlaceholderOf) == [":" + k] + rs;
        Seqs.DistinctCons(":" + k, rs);
      }
    }
  }

  lemma PlaceholderDiffers(k1: string, k2: string)
    requires k1 != k2
    ensures ":" + k1 != ":" + k2
  {
    assert k1 == (":" + k1)[1..] && k2 == (":" + k2)[1..];
  }

  /** In a dict body every placeholder is bound to the body's value for its attribute. */
  lemma PlaceholderValuesMatch(data: Fields)
    requires IsDict(data)
    ensures forall i :: 0 <= i < |Assignments(data)| ==>
      && Assignments(data)[i].placeholder in Placeholders(data)
      && Some(Placeholders(data)[Assignments(data)[i].placeholder]) == Get(data, Assignments(data)[i].attribute)
  {
    forall i | 0 <= i < |Assignments(data)|
      ensures Assignments(data)[i].placeholder in Placeholders(data)
      ensures Some(Placeholders(data)[Assignments(data)[i].placeholder]) == Get(data, Assignments(data)[i].attribute)
    {
      PlaceholderValueAt(data, i);
    }
  }

  lemma {:induction false} PlaceholderValueAt(data: Fields, i: nat)
    requires IsDict(data) && i < |Assignments(data)|
    ensures Assignments(data)[i].placeholder in Collected(data)
    ensures Some(Collected(data)[Assignments(data)[i].placeholder]) == Get(data, Assignments(data)[i].attribute)
    decreases |data|
  {
    var k := data[0].0;
    var a := Assignments(data);
    var ra := Assignments(data[1..]);
    DictTail(data);
    if k == "product_id" {
      assert a == ra;
      PlaceholderValueAt(data[1..], i);
      GetSkip(data, a[i].attribute);
    } else if i == 0 {
      HeadPlaceholderIsNew(data);
    } else {
      HeadPlaceholderIsNew(data);
      RestDiffersFromHead(data);
      assert a[i] == ra[i - 1];
      PlaceholderValueAt(data[1..], i - 1);
      GetSkip(data, a[i].attribute);
    }
  }

  /** In a dict body the clauses built from later members never use the first member's key. */
  lemma RestDiffersFromHead(data: Fields)
    requires IsDict(data) && |data| > 0
    ensures forall i :: 0 <= i < |Assignments(data[1..])| ==>
      Assignments(data[1..])[i].attribute != data[0].0
      && Assignments(data[1..])[i].placeholder != ":" + data[0].0
  {
    DictTail(data);
    var ra := Assignments(data[1..]);
    forall i | 0 <= i < |ra|
      ensures ra[i].attribute != data[0].0 && ra[i].placeholder != ":" + data[0].0
    {
      assert HasKey(data[1..], ra[i].attribute);
      PlaceholderDiffers(ra[i].attribute, data[0].0);
    }
  }

  /** The first member's placeholder is added by the first member, over the rest's map. */
  lemma HeadPlaceholderIsNew(data: Fields)
    requires IsDict(data) && |data| > 0 && data[0].0 != "product_id"
    ensures Collected(data) == Collected(data[1..])[":" + data[0].0 := data[0].1]
  {
    RestDiffersFromHead(data);
    CollectedKeysMatch(data[1..]);
    assert ":" + data[0].0 !in PlaceholderSet(Assignments(data[1..]));
  }

  /**
   * The clauses name exactly the body members other than `product_id`, in body order:
   * none is dropped, none is added.
   */
  lemma {:induction false} AssignmentsAreOtherMembers(data: Fields)
    ensures Seqs.Map(Assignments(data), AttributeOf) == Seqs.Map(Seqs.Filter(data, OtherThanId), KeyOf)
    ensures |Assignments(data)| == Seqs.Count(data, OtherThanId)
  {
    Seqs.FilterIsSubseq(data, OtherThanId);
    if |data| > 0 {
      AssignmentsAreOtherMembers(data[1..]);
      var kept := Seqs.Filter(data[1..], OtherThanId);
      var rest := Seqs.Map(Assignments(data[1..]), AttributeOf);
      if OtherThanId(data[0]) {
        assert Seqs.Filter(data, OtherThanId) == [data[0]] + kept;
        assert Seqs.Map([data[0]] + kept, KeyOf) == [data[0].0] + Seqs.Map(kept, KeyOf);
        assert Seqs.Map(Assignments(data), AttributeOf) == [data[0].0] + rest;
      }
    }
  }

  /** The clause order follows the body's member order. */
  lemma {:induction false} AssignmentsInBodyOrder(data: Fields)
    ensures Seqs.Subseq(Seqs.Map(Assignments(data), AttributeOf), Seqs.Map(data, KeyOf))
  {
    if |data| > 0 {
      AssignmentsInBodyOrder(data[1..]);
      var attrs := Seqs.Map(Assignments(data), AttributeOf);
      var keys := Seqs.Map(data, KeyOf);
      assert keys[1..] == Seqs.Map(data[1..], KeyOf);
      if data[0].0 == "product_id" {
        Seqs.SubseqSkip(attrs, keys);
      } else {
        assert attrs[1..] == Seqs.Map(Assignments(data[1..]), AttributeOf);
      }
    }
  }

  /** A small instance of the clauses the builder produces: `product_id` is skipped, order kept. */
  lemma AssignmentsExample()
    ensures Assignments([("product_id", Str("P1")), ("price", Num(5)), ("item", Str("Tea"))])
      == [Assignment("price", ":price"), Assignment("item", ":item")]
  {
    var d2: Fields := [("item", Str("Tea"))];
    var d1: Fields := [("price", Num(5))] + d2;
    var data: Fields := [("product_id", Str("P1"))] + d1;
    assert d2[1..] == [] && d1[1..] == d2 && data[1..] == d1;
    assert "item" != "product_id" && "price" != "product_id";
    assert ":" + "item" == ":item" && ":" + "price" == ":price";
    assert Assignments(d2[1..]) == [];
    assert Assignments(d2) == [Assignment("item", ":item")];
    assert Assignments(d1) == [Assignment("price", ":price"), Assignment("item", ":item")];
  }

  /** Two clauses render as "SET a = :a, b = :b". */
  lemma UpdateExpressionOfTwo(a1: Assignment, a2: Assignment)
    ensures UpdateExpression([a1, a2]) == "SET " + Clause(a1) + ", " + Clause(a2)
  {
    var a := [a1, a2];
    var c1, c2 := Clause(a1), Clause(a2);
    assert Seqs.Map(a, Clause) == [c1, c2];
    assert [c1, c2][1..] == [c2];
    assert Join([c1, c2], ", ") == c1 + ", " + c2;
    assert "SET " + (c1 + ", " + c2) == "SET " + c1 + ", " + c2;
  }

  /**
   * `edit_product`: refuse a falsy `product_id` with nothing written; otherwise one update
   * of the other members under the built expression and value map.
   */
  function EditProduct(data: Fields): (o: Outcome)
    ensures o == Outcome(Message(400, "Missing product_id"), []) <==>
      (Get(data, "product_id").None? || !Truthy(Get(data, "product_id").value))
    ensures Get(data, "product_id").Some? && Truthy(Get(data, "product_id").value) ==>
      o.response.status == 200
    ensures o.response.status == 200 ==>
      && o.response == Message(200, "Product updated successfully")
      && o.effects == [Update(Get(data, "product_id").value, UpdateExpression(Assignments(data)), Placeholders(data))]
  {
    var pid := Get(data, "product_id");
    if pid.None? || !Truthy(pid.value) then Outcome(Message(400, "Missing product_id"), [])
    else
      Outcome(Message(200, "Product updated successfully"),
              [Update(pid.value, UpdateExpression(Assignments(data)), Placeholders(data))])
  }

  /** `delete_product`: refuse a missing or empty id, else delete it unconditionally. */
  function DeleteProduct(productId: Option<string>): (o: Outcome)
    ensures !GivenId(productId) <==> o == Outcome(Message(400, "Missing product_id"), [])
    ensures GivenId(productId) ==>
      o == Outcome(Message(200, "Product " + productId.value + " deleted successfully"), [Delete(productId.value)])
  {
    if !GivenId(productId) then Outcome(Message(400, "Missing product_id"), [])
    else Outcome(Message(200, "Product " + productId.value + " deleted successfully"), [Delete(productId.value)])
  }

  /**
   * `batch_create_products_model`: the gateway's rejection is passed on as it is; the rows
   * `csv.DictReader` read from the downloaded file are written when there is at least one.
   */
  function BatchCreate(record: S3Record, rows: seq<map<string, string>>): (o: Outcome)
    ensures DownloadFileFromS3(record, "for_create").Rejected? ==>
      o == Outcome(DownloadFileFromS3(record, "for_create").error, [])
    ensures DownloadFileFromS3(record, "for_create").Downloaded? && rows == [] ==>
      o == Outcome(Message(400, "CSV file is empty"), [])
    ensures o.response.status == 200 <==> DownloadFileFromS3(record, "for_create").Downloaded? && rows != []
    ensures o.response.status == 200 ==>
      o == Outcome(Message(200, NatToString(|rows|) + " products created."), [BatchPut(rows)])
  {
    match DownloadFileFromS3(record, "for_create")
    case Rejected(error) => Outcome(error, [])
    case Downloaded(_, _, _) =>
      if rows == [] then Outcome(Message(400, "CSV file is empty"), [])
      else Outcome(Message(200, NatToString(|rows|) + " products created."), [BatchPut(rows)])
  }

  predicate NonEmptyRow(row: seq<string>) { row != [] }

  function FirstCell(row: seq<string>): string { if row == [] then "" else row[0] }

  /**
   * The ids of a delete file: the first cell of every non-empty row, in file order.
   * FirstColumnCons gives the row-by-row equations that fix the order.
   */
  function FirstColumn(rows: seq<seq<string>>): (ids: seq<string>)
    ensures |ids| == Seqs.Count(rows, NonEmptyRow)
    ensures forall i :: 0 <= i < |ids| ==> exists j :: 0 <= j < |rows| && rows[j] != [] && rows[j][0] == ids[i]
  {
    var kept := Seqs.Filter(rows, NonEmptyRow);
    Seqs.FilterIsSubseq(rows, NonEmptyRow);
    var ids := Seqs.Map(kept, FirstCell);
    assert forall i :: 0 <= i < |ids| ==> kept[i] in rows && kept[i] != [] && ids[i] == kept[i][0];
    ids
  }

  /**
   * The ids row by row: no rows give no ids, an empty row adds nothing, and any other row
   * adds its first cell in front of the ids of the rows after it.
   */
  lemma FirstColumnCons(row: seq<string>, rows: seq<seq<string>>)
    ensures FirstColumn([]) == []
    ensures FirstColumn([row] + rows) == (if row == [] then [] else [row[0]]) + FirstColumn(rows)
  {
    assert ([row] + rows)[1..] == rows;
  }

  /** `batch_delete_products_model`: like the batch create, over the first column of the rows. */
  function BatchDelete(record: S3Record, rows: seq<seq<string>>): (o: Outcome)
    ensures DownloadFileFromS3(record, "for_delete").Rejected? ==>
      o == Outcome(DownloadFileFromS3(record, "for_delete").error, [])
    ensures DownloadFileFromS3(record, "for_delete").Downloaded? && Seqs.Count(rows, NonEmptyRow) == 0 ==>
      o == Outcome(Message(400, "No product IDs found"), [])
    ensures o.response.status == 200 <==>
      DownloadFileFromS3(record, "for_delete").Downloaded? && Seqs.Count(rows, NonEmptyRow) > 0
    ensures o.response.status == 200 ==>
      o.effects == [BatchRemove(FirstColumn(rows))]
      && o.response == Message(200, "Deleted " + NatToString(Seqs.Count(rows, NonEmptyRow)) + " products")
  {
    match DownloadFileFromS3(record, "for_delete")
    case Rejected(error) => Outcome(error, [])
    case Downloaded(_, _, _) =>
      var ids := FirstColumn(rows);
      if ids == [] then Outcome(Message(400, "No product IDs found"), [])
      else Outcome(Message(200, "Deleted " + NatToString(|ids|) + " products"), [BatchRemove(ids)])
  }
}

=== FILE: s3_gateway.dfy ===
/**
 * `download_file_from_s3` of gateways/s3_gateway.py: accept an S3 event record only when
 * its key lies inside the expected folder, and name the local copy after the key's last
 * path segment. The key arrives already URL-decoded.
 */
module S3Gateway {
  import opened Http
  import opened Strings

  /** The first record of an S3 event: its bucket and its decoded object key. */
  datatype S3Record = S3Record(bucket: string, key: string)

  /** The gateway's answer: an error response, or the bucket and local path of the downloaded key. */
  datatype Download = Rejected(error: Response) | Downloaded(bucket: string, key: string, localPath: string)

  /** The file name of a key: its last '/'-separated piece, the longest suffix without a '/'. */
  function BaseName(key: string): (b: string)
    ensures '/' !in b
    ensures |b| <= |key| && b == key[|key| - |b|..]
    ensures |b| < |key| ==> key[|key| - |b| - 1] == '/'
  {
    if |key| == 0 then ""
    else if key[|key| - 1] == '/' then ""
    else
      var b := BaseName(key[..|key| - 1]) + [key[|key| - 1]];
      assert key[..|key| - 1][|key| - |b|..] + [key[|key| - 1]] == key[|key| - |b|..];
      b
  }

  /** The base name of `folder/name` is `name` whenever the name itself has no '/'. */
  lemma {:induction false} BaseNameOfPath(folder: string, name: string)
    requires '/' !in name
    ensures BaseName(folder + "/" + name) == name
    decreases |name|
  {
    var key := folder + "/" + name;
    if |name| == 0 {
      assert key[|key| - 1] == '/';
    } else {
      var init := name[..|name| - 1];
      assert key[..|key| - 1] == folder + "/" + init;
      assert key[|key| - 1] == name[|name| - 1];
      BaseNameOfPath(folder, init);
      assert init + [name[|name| - 1]] == name;
    }
  }

  function DownloadFileFromS3(record: S3Record, folderPrefix: string): (d: Download)
    ensures d.Downloaded? <==> StartsWith(record.key, folderPrefix + "/")
    ensures d.Rejected? ==> d.error == Response(400, Text("Invalid file location"))
    ensures d.Downloaded? ==>
      && d.bucket == record.bucket
      && d.key == record.key
      && d.localPath == "/tmp/" + BaseName(record.key)
  {
    if !StartsWith(record.key, folderPrefix + "/") then Rejected(Response(400, Text("Invalid file location")))
    else Downloaded(record.bucket, record.key, "/tmp/" + BaseName(record.key))
  }

  /** The trailing '/' is required: the folder name alone, or a longer name sharing its start, is refused. */
  lemma FolderNeedsSlash(bucket: string, prefix: string, c: char, rest: string)
    requires c != '/'
    ensures DownloadFileFromS3(S3Record(bucket, prefix), prefix).Rejected?
    ensures DownloadFileFromS3(S3Record(bucket, prefix + [c] + rest), prefix).Rejected?
  {
    var k := prefix + [c] + rest;
    assert k[|prefix|] == c;
  }

  /** A file directly inside the folder is fetched to `/tmp/` under its own name. */
  lemma AcceptsFileInFolder(bucket: string, prefix: string, name: string)
    requires '/' !in name
    ensures DownloadFileFromS3(S3Record(bucket, prefix + "/" + name), prefix)
      == Downloaded(bucket, prefix + "/" + name, "/tmp/" + name)
  {
    BaseNameOfPath(prefix, name);
    assert (prefix + "/" + name)[..|prefix + "/"|] == prefix + "/";
  }
}

=== FILE: seqs.dfy ===
/**
 * Sequence operations the JavaScript and Python code reaches for: `Array.filter`,
 * `[...new Set(xs)]`, list comprehensions with a condition.
 */
module Seqs {

  /** `xs.map(f)` */
  function Map<T, U>(xs: seq<T>, f: T -> U): (r: seq<U>)
    ensures |r| == |xs|
    ensures forall i :: 0 <= i < |xs| ==> r[i] == f(xs[i])
  {
    if |xs| == 0 then [] else [f(xs[0])] + Map(xs[1..], f)
  }

  lemma MapSnoc<T, U>(xs: seq<T>, x: T, f: T -> U)
    ensures Map(xs + [x], f) == Map(xs, f) + [f(x)]
  {
  }

  /** `xs.filter(keep)`: the elements that satisfy `keep`, in their original order. */
  function Filter<T>(xs: seq<T>, keep: T -> bool): (r: seq<T>)
    ensures |r| <= |xs|
    ensures forall i :: 0 <= i < |r| ==> keep(r[i])
    ensures forall i :: 0 <= i < |r| ==> r[i] in xs
    ensures forall i :: 0 <= i < |xs| && keep(xs[i]) ==> xs[i] in r
  {
    if |xs| == 0 then []
    else if keep(xs[0]) then [xs[0]] + Filter(xs[1..], keep)
    else Filter(xs[1..], keep)
  }

  /** How many elements satisfy `keep`. */
  function Count<T>(xs: seq<T>, keep: T -> bool): nat {
    if |xs| == 0 then 0
    else (if keep(xs[0]) then 1 else 0) + Count(xs[1..], keep)
  }

  /** `a` is `b` with some elements removed and the rest in their original order. */
  predicate Subseq<T(==)>(a: seq<T>, b: seq<T>)
    decreases |b|
  {
    if |a| == 0 then true
    else if |b| == 0 then false
    else if a[0] == b[0] then Subseq(a[1..], b[1..])
    else Subseq(a, b[1..])
  }

  /**
   * The filter is exactly the subsequence of satisfying elements: it keeps the
   * original order and drops no element that satisfies `keep`.
   */
  lemma {:induction false} FilterIsSubseq<T>(xs: seq<T>, keep: T -> bool)
    ensures Subseq(Filter(xs, keep), xs)
    ensures |Filter(xs, keep)| == Count(xs, keep)
  {
    if |xs| > 0 {
      FilterIsSubseq(xs[1..], keep);
      var r := Filter(xs, keep);
      if keep(xs[0]) {
        assert r[0] == xs[0] && r[1..] == Filter(xs[1..], keep);
      } else {
        SubseqSkip(r, xs);
      }
    }
  }

  /** Dropping the head of `b` that `a` does not use. */
  lemma SubseqSkip<T>(a: seq<T>, b: seq<T>)
    requires |b| > 0
    requires Subseq(a, b[1..])
    ensures Subseq(a, b)
    decreases |a| + |b|
  {
    if |a| > 0 && a[0] == b[0] {
      SubseqTail(a, b[1..]);
    }
  }

  lemma SubseqTail<T>(a: seq<T>, b: seq<T>)
    requires |a| > 0
    requires Subseq(a, b)
    ensures Subseq(a[1..], b)
    decreases |a| + |b|
  {
    if |b| > 0 {
      if a[0] == b[0] {
        SubseqSkip(a[1..], b);
      } else {
        SubseqTail(a, b[1..]);
        SubseqSkip(a[1..], b);
      }
    }
  }

  /** No element occurs twice. */
  predicate Distinct<T(==)>(xs: seq<T>) {
    forall i, j :: 0 <= i < j < |xs| ==> xs[i] != xs[j]
  }

  /** The position of the first occurrence of `x`. */
  function FirstPos<T(==)>(xs: seq<T>, x: T): (k: nat)
    requires x in xs
    ensures k < |xs| && xs[k] == x
    ensures x !in xs[..k]
  {
    if xs[0] == x then 0
    else
      var k := FirstPos(xs[1..], x) + 1;
      assert xs[..k] == [xs[0]] + xs[1..][..k - 1];
      k
  }

  /**
   * `[...new Set(xs)]`: each element once, in order of first appearance. A JavaScript
   * Set iterates in insertion order and inserting a present element does nothing, so
   * the set after a prefix is `Dedup` of that prefix.
   */
  function Dedup<T(==)>(xs: seq<T>): (r: seq<T>)
    ensures Distinct(r)
    ensures forall i :: 0 <= i < |r| ==> r[i] in xs
    ensures forall i :: 0 <= i < |xs| ==> xs[i] in r
    ensures |r| <= |xs|
    decreases |xs|
  {
    if |xs| == 0 then []
    else
      var init := xs[..|xs| - 1];
      assert xs == init + [xs[|xs| - 1]];
      var d := Dedup(init);
      if xs[|xs| - 1] in d then d else d + [xs[|xs| - 1]]
  }

  lemma FirstPosInPrefix<T>(xs: seq<T>, n: nat, x: T)
    requires n <= |xs|
    requires x in xs[..n]
    ensures FirstPos(xs[..n], x) == FirstPos(xs, x)
  {
    var k := FirstPos(xs[..n], x);
    var m := FirstPos(xs, x);
    assert xs[..n][..k] == xs[..k];
  }

  /**
   * The deduplicated sequence lists elements by increasing position of their
   * first occurrence in `xs`.
   */
  lemma {:induction false} DedupFirstAppearance<T>(xs: seq<T>)
    ensures forall i, j :: 0 <= i < j < |Dedup(xs)| ==>
      FirstPos(xs, Dedup(xs)[i]) < FirstPos(xs, Dedup(xs)[j])
    decreases |xs|
  {
    if |xs| > 0 {
      var n := |xs| - 1;
      var init := xs[..n];
      assert xs == init + [xs[n]];
      DedupFirstAppearance(init);
      var d := Dedup(init);
      forall y | y in d ensures FirstPos(xs, y) == FirstPos(init, y) && FirstPos(xs, y) < n {
        FirstPosInPrefix(xs, n, y);
      }
      if xs[n] !in d {
        assert xs[n] !in init;
        assert FirstPos(xs, xs[n]) == n;
        var r := Dedup(xs);
        assert r == d + [xs[n]];
        forall i, j | 0 <= i < j < |r| ensures FirstPos(xs, r[i]) < FirstPos(xs, r[j]) {
          if j < |d| {
            assert r[i] == d[i] && r[j] == d[j];
          } else {
            assert r[i] == d[i] && r[i] in d;
          }
        }
      }
    }
  }

  /** `xs.slice(0, n)`: the first n elements, or all of them when there are fewer. */
  function Take<T>(xs: seq<T>, n: nat): (r: seq<T>)
    ensures |r| == if |xs| <= n then |xs| else n
    ensures forall i :: 0 <= i < |r| ==> r[i] == xs[i]
    ensures |xs| <= n ==> r == xs
  {
    if |xs| <= n then xs else xs[..n]
  }

  lemma TakeDistinct<T>(xs: seq<T>, n: nat)
    requires Distinct(xs)
    ensures Distinct(Take(xs, n))
  {
  }

  lemma DistinctCons<T>(x: T, xs: seq<T>)
    requires Distinct(xs)
    requires x !in xs
    ensures Distinct([x] + xs)
  {
    var ys := [x] + xs;
    forall i, j | 0 <= i < j < |ys| ensures ys[i] != ys[j] {
      assert ys[j] == xs[j - 1];
      if i > 0 {
        assert ys[i] == xs[i - 1];
      }
    }
  }
}

=== FILE: strings.dfy ===
/** String helpers with the semantics of the Python and JavaScript built-ins they stand for. */
module Strings {

  /** `s.startswith(p)` / `s.startsWith(p)` */
  predicate StartsWith(s: string, p: string) {
    |p| <= |s| && s[..|p|] == p
  }

  /** `sep.join(parts)` */
  function Join(parts: seq<string>, sep: string): string {
    if |parts| == 0 then ""
    else if |parts| == 1 then parts[0]
    else parts[0] + sep + Join(parts[1..], sep)
  }

  /** Joining one more part adds the separator and the part at the end. */
  lemma {:induction false} JoinSnoc(parts: seq<string>, p: string, sep: string)
    requires parts != []
    ensures Join(parts + [p], sep) == Join(parts, sep) + sep + p
  {
    if |parts| == 1 {
      assert (parts + [p])[1..] == [p];
    } else {
      assert (parts + [p])[1..] == parts[1..] + [p];
      JoinSnoc(parts[1..], p, sep);
    }
  }

  /** Position of the first `c` in `s`. */
  function IndexOf(s: string, c: char): (k: nat)
    requires c in s
    ensures k < |s| && s[k] == c
    ensures c !in s[..k]
  {
    if s[0] == c then 0
    else
      var k := IndexOf(s[1..], c) + 1;
      assert s[..k] == [s[0]] + s[1..][..k - 1];
      k
  }

  /**
   * `s.split(sep)` for a one-character separator: the pieces between separators,
   * always at least one (`"".split(",")` is `[""]`).
   */
  function Split(s: string, sep: char): (r: seq<string>)
    ensures |r| >= 1
    ensures forall i :: 0 <= i < |r| ==> sep !in r[i]
    decreases |s|
  {
    if sep !in s then [s]
    else
      var k := IndexOf(s, sep);
      [s[..k]] + Split(s[k + 1..], sep)
  }

  /** Joining separator-free pieces and splitting again gives the pieces back. */
  lemma {:induction false} SplitJoin(parts: seq<string>, sep: char)
    requires |parts| >= 1
    requires forall i :: 0 <= i < |parts| ==> sep !in parts[i]
    ensures Split(Join(parts, [sep]), sep) == parts
  {
    var s := Join(parts, [sep]);
    if |parts| == 1 {
      assert s == parts[0];
    } else {
      var rest := Join(parts[1..], [sep]);
      assert s == parts[0] + [sep] + rest;
      assert s[|parts[0]|] == sep;
      assert s[..|parts[0]|] == parts[0];
      var k := IndexOf(s, sep);
      assert k == |parts[0]|;
      assert s[k + 1..] == rest;
      SplitJoin(parts[1..], sep);
    }
  }

  /** Splitting and joining with the same separator gives the string back. */
  lemma {:induction false} JoinSplit(s: string, sep: char)
    ensures Join(Split(s, sep), [sep]) == s
    decreases |s|
  {
    if sep in s {
      var k := IndexOf(s, sep);
      var rest := s[k + 1..];
      var tail := Split(rest, sep);
      assert Split(s, sep) == [s[..k]] + tail;
      assert Join([s[..k]] + tail, [sep]) == s[..k] + [sep] + Join(tail, [sep]) by {
        assert ([s[..k]] + tail)[1..] == tail;
      }
      JoinSplit(rest, sep);
      assert s == s[..k] + [sep] + rest;
    }
  }

  /** Python's `str.isspace()` characters (Unicode categories Zs, and bidi classes WS, B, S). */
  predicate IsPySpace(c: char) {
    ('\t' <= c <= '\r') || ('\U{1C}' <= c <= '\U{1F}') || c == ' ' || c == '\U{85}'
    || c == '\U{A0}' || c == '\U{1680}' || ('\U{2000}' <= c <= '\U{200A}')
    || c == '\U{2028}' || c == '\U{2029}' || c == '\U{202F}' || c == '\U{205F}' || c == '\U{3000}'
  }

  /** ECMAScript StrWhiteSpaceChar: WhiteSpace and LineTerminator, as `parseInt` skips them. */
  predicate IsJsSpace(c: char) {
    c == '\t' || c == '\n' || c == '\U{B}' || c == '\U{C}' || c == '\r' || c == ' '
    || c == '\U{A0}' || c == '\U{1680}' || ('\U{2000}' <= c <= '\U{200A}')
    || c == '\U{2028}' || c == '\U{2029}' || c == '\U{202F}' || c == '\U{205F}'
    || c == '\U{3000}' || c == '\U{FEFF}'
  }

  function StripLeft(s: string): (r: string)
    ensures |r| <= |s| && r == s[|s| - |r|..]
    ensures forall i :: 0 <= i < |s| - |r| ==> IsPySpace(s[i])
    ensures |r| > 0 ==> !IsPySpace(r[0])
  {
    if |s| > 0 && IsPySpace(s[0]) then StripLeft(s[1..]) else s
  }

  function StripRight(s: string): (r: string)
    ensures |r| <= |s| && r == s[..|r|]
    ensures forall i :: |r| <= i < |s| ==> IsPySpace(s[i])
    ensures |r| > 0 ==> !IsPySpace(r[|r| - 1])
  {
    if |s| > 0 && IsPySpace(s[|s| - 1]) then StripRight(s[..|s| - 1]) else s
  }

  /** `s.strip()`: the middle of `s` once leading and trailing whitespace is removed. */
  function Strip(s: string): (r: string)
    ensures |r| > 0 ==> !IsPySpace(r[0]) && !IsPySpace(r[|r| - 1])
    ensures |r| <= |s|
    ensures (forall i :: 0 <= i < |s| ==> !IsPySpace(s[i])) ==> r == s
  {
    StripRight(StripLeft(s))
  }

  /** `s.strip()` removes white space at the two ends and nothing else: the result is a middle slice of `s`. */
  lemma StripIsMiddle(s: string) returns (i: nat)
    ensures i + |Strip(s)| <= |s| && Strip(s) == s[i..i + |Strip(s)|]
    ensures forall k :: 0 <= k < i ==> IsPySpace(s[k])
    ensures forall k :: i + |Strip(s)| <= k < |s| ==> IsPySpace(s[k])
  {
    var l := StripLeft(s);
    i := |s| - |l|;
    var r := StripRight(l);
    assert l == s[i..] && r == l[..|r|];
    forall k | i + |r| <= k < |s|
      ensures IsPySpace(s[k])
    {
      assert s[k] == l[k - i];
    }
  }

  /** Whitespace appended after a non-space character is exactly what `strip` removes. */
  lemma {:induction false} StripPadded(s: string, pad: string)
    requires |s| > 0 && !IsPySpace(s[0]) && !IsPySpace(s[|s| - 1])
    requires forall i :: 0 <= i < |pad| ==> IsPySpace(pad[i])
    ensures Strip(s + pad) == s
  {
    assert StripLeft(s + pad) == s + pad;
    StripRightPad(s, pad);
  }

  lemma {:induction false} StripRightPad(s: string, pad: string)
    requires |s| > 0 && !IsPySpace(s[|s| - 1])
    requires forall i :: 0 <= i < |pad| ==> IsPySpace(pad[i])
    ensures StripRight(s + pad) == s
    decreases |pad|
  {
    if |pad| > 0 {
      var t := s + pad;
      assert t[..|t| - 1] == s + pad[..|pad| - 1];
      StripRightPad(s, pad[..|pad| - 1]);
    } else {
      assert s + pad == s;
    }
  }

  predicate IsUpperAscii(c: char) { 'A' <= c <= 'Z' }

  /** Case mapping of one character, restricted to ASCII letters. */
  function LowerChar(c: char): char {
    if IsUpperAscii(c) then (c as int + 32) as char else c
  }

  function UpperChar(c: char): char {
    if 'a' <= c <= 'z' then (c as int - 32) as char else c
  }

  lemma LowerOfUpper(c: char)
    ensures LowerChar(UpperChar(c)) == LowerChar(c)
  {
  }

  /** Upper-casing first does not change what lower-casing gives. */
  lemma ToLowerOfToUpper(s: string)
    ensures ToLower(ToUpper(s)) == ToLower(s)
  {
    forall i | 0 <= i < |s| ensures ToLower(ToUpper(s))[i] == ToLower(s)[i] {
      LowerOfUpper(s[i]);
    }
  }

  /** `s.toLowerCase()` / `s.lower()` on ASCII letters. */
  function ToLower(s: string): (r: string)
    ensures |r| == |s|
    ensures forall i :: 0 <= i < |s| ==> r[i] == LowerChar(s[i])
  {
    if |s| == 0 then "" else [LowerChar(s[0])] + ToLower(s[1..])
  }

  /** `s.upper()` on ASCII letters. */
  function ToUpper(s: string): (r: string)
    ensures |r| == |s|
    ensures forall i :: 0 <= i < |s| ==> r[i] == UpperChar(s[i])
  {
    if |s| == 0 then "" else [UpperChar(s[0])] + ToUpper(s[1..])
  }
}
